=== FILE: README.md ===
# Credential and authorisation logic of the fleet-inspection backend, in Dafny

This project models the credential and authorisation decisions of the
FastAPI backend of a rider-inspection dashboard. It covers:

- the JSON Web Tokens it mints and checks (RFC 7519, signed with HS256 as in
  section 3.2 of RFC 7518);
- the bcrypt password hasher;
- user authentication and the login endpoint (the password grant of section
  4.3 of RFC 6749);
- the email-verification and password-reset workflows;
- the role guards;
- the way `POST /inspections` resolves which rider an inspection is about.

The crypto library and the database are abstracted away. What remains is a
set of pure functions over a user table (`map<string, User>` keyed by
username), a rider list (`seq<Rider>`), an inspection table
(`map<int, Inspection>`) and a clock. Each handler returns `Ok(value)` or
`Err(status)`, with `status` one of 400, 401, 403, 404 and 422, as raised by
the source's `HTTPException`s.

Layout, one module per source file:

| file | module | models |
|---|---|---|
| common.dfy | `Common` | `Option`, `Result`, HTTP statuses, Python truthiness of `None`, `""` and `0`, `dict.get`, `a or b` |
| models.dfy | `Models` | `User`, `Rider`, `Inspection` rows, `UserCreate` |
| jwt.dfy | `Jwt` | the abstract signed token, `encode`/`decode`, the `exp` rule |
| jwt_utils.dfy | `JwtUtils` | `auth/jwt_utils.py` |
| auth.dfy | `Auth` | `auth/auth.py` |
| password_reset.dfy | `PasswordReset` | `auth/password_reset.py` |
| email_verification.dfy | `EmailVerification` | `auth/email_verification.py` |
| py_text.dfy | `PyText` | Python's `str.strip()` and `int(str)` |
| accounts.dfy | `Accounts` | the account endpoints of `main.py` |
| records.dfy | `Records` | the rider guard and inspection endpoints of `main.py` |
| dependencies.dfy | `Dependencies` | `dependencies.py` |
| workflow.dfy | `Workflow` | properties across operations: the account lifecycle and which token is accepted where |

Modelling choices:

- **Tokens.** A token is `Signed(alg, claims, exp, key)` or `Malformed`. The
  signature is abstracted as "signed with the verifier's key". The claims map
  never holds `exp`, which is kept as its own field. Minting drops any
  caller-supplied `exp`, because the source's `update({"exp": …})` overwrites
  it.
- **Time.** Time is whole seconds in `Clock.now`. A token decodes only when
  `now < exp`. At the exact instant `now == exp`, the flag
  `Clock.acceptsAtExpiry` decides. Two different JWT libraries are used and
  they may differ there, so no property depends on that flag.
- **The hasher.** It is a pair of function values `hash(password, salt)` and
  `verify(password, digest)`. The random salt is an explicit argument. Its
  one assumed law, `verify(p, hash(p, s))`, is the predicate `Auth.Sound`,
  and lemmas that need it take it as a precondition.
- **Python truthiness.** It is written out wherever the source relies on it:
  - a zero `timedelta` falls back to the default expiry in both
    `create_access_token`s;
  - an empty `sub` is "absent" in `reset_password_with_token` and in
    `main.verify_email`'s `sub or username`, but not in `get_current_user`,
    which only tests `is None`;
  - `rider_id` 0 counts as absent.
- **The reset endpoint.** `reset_password_with_token` calls the raising
  `verify_token`. So `POST /reset-password` answers 401 for an expired or
  forged token. It answers 400 only when the token has no usable `sub` or
  names no user.
- **Login and reset tokens are the same kind of token.** `main.py` mints
  both with `jwt_utils.create_access_token`, and no claim records what a
  token is for. A login token therefore authorises a password reset and
  verifies an email, and a reset token authenticates requests. A
  verification token carries `username` and no `sub`, so it never
  authenticates a request. `Workflow` proves each of these.

What the code does not enforce, and the model follows as written:

- an unknown user and an unverified account both get the same 401 at login,
  not distinct errors;
- tokens carry no purpose claim;
- tokens are not single-use;
- verification tokens use the claim `username`;
- the reset token lives 30 minutes because `forgot_password` uses the
  `jwt_utils` default, not because of `create_password_reset_token`, which
  nothing calls.

## Model

| member | source | states |
|---|---|---|
| Jwt.Encode | fastapi-backend/auth/jwt_utils.py:11-16 | the token is signed with the given key and algorithm, carries the given `exp`, and holds every other claim of the data unchanged and nothing else |
| Jwt.Decode | fastapi-backend/auth/jwt_utils.py:18-25 | a token decodes iff it is well formed, is HS256, is signed with the verifier's key and its `exp` has not passed; the payload is then exactly its claims and `exp` |
| Jwt.EncodeDecode | fastapi-backend/auth/jwt_utils.py:11-21 | a token signed with a key decodes with that key, before expiry, to the signed data minus any caller `exp`, plus the new `exp` |
| Jwt.ExpiredNeverDecodes | fastapi-backend/auth/password_reset.py:41-49 | once the clock is past `exp`, no key decodes the token |
| JwtUtils.AccessExpiry | fastapi-backend/auth/jwt_utils.py:8-13 | `exp` is `now + expires_delta`, or `now + 30` minutes when the delta is absent or zero |
| JwtUtils.CreateAccessToken | fastapi-backend/auth/jwt_utils.py:11-15 | every input claim except `exp` is carried unchanged, nothing else is added, `exp` is as above, and the token is signed with the module key and HS256 |
| JwtUtils.VerifyToken | fastapi-backend/auth/jwt_utils.py:18-25 | returns the payload iff the token is HS256, correctly keyed and unexpired; otherwise `None` rather than an error |
| JwtUtils.CreateJwtToken | fastapi-backend/auth/jwt_utils.py:29 | is exactly `create_access_token` |
| JwtUtils.VerifyJwtToken | fastapi-backend/auth/jwt_utils.py:30 | is exactly `verify_token` |
| JwtUtils.CreateVerifyRoundTrip | fastapi-backend/auth/jwt_utils.py:11-21 | before expiry, verifying a created token gives back the data plus `exp` |
| JwtUtils.ExpiredTokenIsNone | fastapi-backend/auth/jwt_utils.py:22-23 | after expiry, verifying a created token gives `None` |
| Auth.GetPasswordHash | fastapi-backend/auth/auth.py:16-17 | with a sound hasher, the digest verifies against the password it was made from |
| Auth.VerifyPassword | fastapi-backend/auth/auth.py:19-20 | with a sound hasher, a digest made from the password by any salt is accepted |
| Auth.HashThenVerify | fastapi-backend/auth/auth.py:16-20 | `verify_password(p, get_password_hash(p))` holds for every password and salt |
| Auth.AuthenticateUser | fastapi-backend/auth/auth.py:22-28 | returns the stored user iff the username exists and the password verifies against its digest; the verified flag plays no part |
| Auth.Expiry | fastapi-backend/auth/auth.py:32 | `exp` is `now + expires_delta`, or `now + 15` minutes when the delta is absent or zero |
| Auth.SessionClaims | fastapi-backend/auth/auth.py:31-36 | an existing `sub` is kept; a missing `sub` is filled from `username` when present; every other claim is copied and no other claim appears |
| Auth.CreateAccessToken | fastapi-backend/auth/auth.py:30-38 | the token carries those claims, the 15-minute default expiry, the module key and HS256 |
| Auth.GetCurrentUser | fastapi-backend/auth/auth.py:40-58 | succeeds iff the token decodes, has a `sub` and that name is a user, and then returns exactly that user; every failure is 401 |
| Auth.CreateThenAuthenticate | fastapi-backend/auth/auth.py:30-58 | a token minted by `create_access_token` with a `sub` (or, lacking one, a `username`) authenticates as that named user until it expires, and is 401 when no such user exists |
| Auth.NoSubNeverAuthenticates | fastapi-backend/auth/auth.py:48-50 | a token without `sub` is always refused with 401 |
| Auth.CurrentUserIsSubject | fastapi-backend/auth/auth.py:54-58 | in a well-formed table, the authenticated user's name is the token's `sub` |
| PasswordReset.CreateToken | fastapi-backend/auth/password_reset.py:34-38 | `exp` is `now` plus the given minutes (60 by default, with no truthiness fallback); the other claims are copied unchanged |
| PasswordReset.VerifyToken | fastapi-backend/auth/password_reset.py:41-49 | returns the payload iff the token decodes; otherwise raises 401 rather than returning `None` |
| PasswordReset.CreateVerifyRoundTrip | fastapi-backend/auth/password_reset.py:34-49 | a token from `create_token` verifies to the caller's claims plus `exp` before it expires and is refused with 401 after |
| PasswordReset.ResetPasswordWithToken | fastapi-backend/auth/password_reset.py:16-31 | a decoding failure is 401; a missing or empty `sub`, or an unknown user, returns `None` with the table unchanged; otherwise it replaces that user's digest with the hash of the new password and returns the username; any correctly keyed, unexpired token with a `sub` qualifies |
| PasswordReset.ResetTouchesOnlyDigest | fastapi-backend/auth/password_reset.py:25-31 | a reset keeps every user; every user other than the target is unchanged, and the target keeps its name, role and verified flag |
| PasswordReset.ResetThenAuthenticate | fastapi-backend/auth/password_reset.py:29-31 | after a successful reset, the new password authenticates the user |
| PasswordReset.CreatePasswordResetToken | fastapi-backend/auth/password_reset.py:52-53 | the token's only claim is `sub`, and it expires 30 minutes after issue |
| PasswordReset.IssuedTokensNameUser | fastapi-backend/auth/password_reset.py:52-65 | the reset token (within 30 minutes) and the verification token (within 24 hours) both give back the username they were issued for |
| PasswordReset.CreateEmailVerificationToken | fastapi-backend/auth/password_reset.py:55-56 | the token's only claim is `sub`, and it expires 24 hours after issue |
| PasswordReset.GetUsernameFromToken | fastapi-backend/auth/password_reset.py:59-64 | returns `sub` (even an empty one); 401 if the token does not decode; 400 if `sub` is absent |
| EmailVerification.SendVerificationEmail | fastapi-backend/auth/email_verification.py:12-15 | the mail goes to the username; its token's only claim is `username` (no `sub`), it is signed with the `jwt_utils` key and it expires 24 hours after issue |
| EmailVerification.LinkCarriesToken | fastapi-backend/auth/email_verification.py:16 | the link's `token` query parameter reads back as the compact token, verbatim and needing no decoding |
| EmailVerification.VerifyEmail | fastapi-backend/auth/email_verification.py:39-52 | 400 when the token does not verify; the user is found by the `username` claim only, 404 when none; otherwise only that user's flag is set |
| EmailVerification.VerifyEmailToken | fastapi-backend/auth/email_verification.py:54-55 | is exactly `jwt_utils.verify_token` |
| EmailVerification.VerifyEmailIdempotent | fastapi-backend/auth/email_verification.py:50-52 | verifying again succeeds and leaves the table as the first verification did |
| EmailVerification.MailedTokenVerifies | fastapi-backend/auth/email_verification.py:39-52 | the mailed token, used within 24 hours, verifies its recipient |
| Models.MakeUserCreate | fastapi-backend/schemas.py:5-8 | an omitted role in a registration request is `"supervisor"` |
| Accounts.RequireAdmin | fastapi-backend/main.py:37-42 | passes iff the role is `"admin"`; otherwise 403 |
| Accounts.RegisterUser | fastapi-backend/main.py:47-70 | 401 without a valid bearer, then 403 for a non-admin, then 400 iff the username exists; otherwise exactly one new unverified row holding the hash of the password and the requested role; the verification mail goes to the new username |
| Accounts.VerificationSubject | fastapi-backend/main.py:81 | the subject is `sub` when it is non-empty, else the `username` claim |
| Accounts.VerifyEmail | fastapi-backend/main.py:75-87 | 400 when the token does not verify; 404 when the subject is missing or unknown; otherwise only that user's flag is set |
| Accounts.ForgotPassword | fastapi-backend/main.py:92-100 | 404 iff the email is unknown; otherwise a mail to that user whose token has only `sub` and expires 30 minutes after issue |
| Accounts.ResetPassword | fastapi-backend/main.py:102-111 | 401 when the token does not decode; else 400 unless `sub` is non-empty and names a user; otherwise only that user's digest is replaced |
| Accounts.LoginForAccessToken | fastapi-backend/main.py:116-132 | succeeds iff the user exists, the password verifies and the email is verified, otherwise 401; the token has only `sub = username` and a 30-minute expiry |
| Records.AdminGate | fastapi-backend/main.py:144-149 | 401 without a valid bearer; passes only an authenticated admin, returned unchanged; otherwise 403 |
| Records.ReadRiders | fastapi-backend/main.py:144-150 | the rider list is returned iff the guard passes; otherwise the guard's error |
| Records.CreateRider | fastapi-backend/main.py:152-159 | a rider is appended iff the admin guard passes; otherwise the guard's error and no rider is added |
| Records.RiderGuardFirst | fastapi-backend/main.py:144-187 | when the admin guard refuses, every rider endpoint returns the guard's error whatever the rider table or the id |
| Records.RiderForChange | fastapi-backend/main.py:178-187 | the admin guard runs before any lookup; after it, 404 iff no rider has the id; otherwise the position of a rider with that id |
| Records.FirstRider | fastapi-backend/crud.py:9-10 | the position of the first rider that matches, or `None` iff none matches |
| Records.ParseRiderId | fastapi-backend/main.py:219-226 | a missing or `strip()`-blank `rider_id` is `None`; otherwise the value `int()` reads, or 400 when `int()` raises, which includes text padded with the separators U+001C to U+001F that `strip()` drops but `int()` keeps |
| Records.ParseRiderIdShow | fastapi-backend/main.py:223-226 | every integer written in decimal is accepted as itself |
| Records.SeparatorPaddedRiderId | fastapi-backend/main.py:219-226 | `rider_id = "\x1c5"` is not blank after `strip()` yet is refused by `int()`, so it is answered with 400 |
| Records.BackFillRiderId | fastapi-backend/main.py:228-232 | a truthy rider id, or a falsy id number, leaves the id as it was; otherwise the first rider with that id number supplies its id, and the id is unchanged if there is none |
| Records.ImageUrl | fastapi-backend/main.py:240-245 | an uploaded file is referenced as `uploads/<filename>`, and there is no URL without a file |
| Records.CreateInspection | fastapi-backend/main.py:202-265 | 400 for a non-integer `rider_id`; else 422 iff the resolved rider id, the id number and the location are all falsy; otherwise a row recorded as inspected by the caller, with the form's fields |
| Records.ZeroRiderIdCountsAsAbsent | fastapi-backend/main.py:229-238 | any `rider_id` that `int()` reads as 0 (`0`, `+0`, `-0`, `0_0`, padded or not) is falsy: with no id number and no location the request is refused with 422 |
| Records.UpdateInspection | fastapi-backend/main.py:267-321 | 404 iff the id is unknown, checked before permission; 403 iff the caller may not modify it; otherwise it succeeds and only that row changes, keeping its recorder and id; no identifier is required |
| Records.DeleteInspection | fastapi-backend/main.py:323-339 | 404 iff the id is unknown, checked first; then 403 iff the caller may not modify it; otherwise it succeeds and exactly that row is removed |
| Records.CreateInspectionRequest | fastapi-backend/main.py:202-217 | `get_current_user` runs first: 401 when the request does not authenticate, otherwise the handler's outcome for that user |
| Records.UpdateInspectionRequest | fastapi-backend/main.py:267-283 | 401 when the request does not authenticate, before the handler's 404 and 403; otherwise the handler's outcome for that user |
| Records.DeleteInspectionRequest | fastapi-backend/main.py:323-327 | 401 when the request does not authenticate, before the handler's 404 and 403; otherwise the handler's outcome for that user |
| Records.AuthenticationComesFirst | fastapi-backend/main.py:202-336 | an unauthenticated request is 401 at every inspection endpoint whatever the table, id or form, so an unknown id is never reported as 404 |
| Records.CreatedInspectionFacts | fastapi-backend/main.py:229-336 | a supervisor may change and delete an inspection they just created; a rider id back-filled from the id number names a rider with that number |
| Records.OwnershipRule | fastapi-backend/main.py:289-336 | the supervisor recorded as an inspection's author and any admin may change or delete it; a non-admin other user may neither change nor delete it |
| Records.PlainUserCannotEditOwn | fastapi-backend/main.py:289-336 | a caller who is neither admin nor supervisor is refused with 403 when changing or deleting an inspection, even one recorded under their own name |
| PyText.Strip | fastapi-backend/main.py:220 | the result is the slice left after dropping `str.isspace()` whitespace at both ends, and it neither starts nor ends with whitespace |
| PyText.ParseInt | fastapi-backend/main.py:224 | `int()` succeeds iff the text, without the whitespace `int()` skips (the C-locale spaces and non-ASCII whitespace, not U+001C to U+001F), is grouped digits with at most one leading sign; the value is then those digits read in base 10 with underscores ignored, negated after a `-` |
| PyText.DropUnderscores | fastapi-backend/main.py:224 | removing the underscores of a literal leaves no `_`, keeps a single non-underscore character, and keeps digits as digits |
| PyText.DropUnderscoresAppend | fastapi-backend/main.py:224 | removing underscores distributes over concatenation, so with the one-character cases it keeps every other character in order |
| PyText.ParseGrouped | fastapi-backend/main.py:224 | an unpadded grouped literal such as `0_0` or `1_0` reads as its digits with the underscores ignored |
| PyText.ParseSigned | fastapi-backend/main.py:224 | a sign followed by a grouped literal reads as that value, negated after `-`: `+0` and `-0` read as 0, `+5` as 5 |
| PyText.SeparatorIsNotIntSpace | fastapi-backend/main.py:220-224 | `strip()` drops a leading U+001C where `int()` does not: `"\x1c5".strip()` is `"5"` while `int("\x1c5")` raises |
| PyText.ParseShow | fastapi-backend/main.py:224 | `int(str(n)) == n` for every integer |
| Dependencies.GetCurrentAdmin | fastapi-backend/dependencies.py:8-11 | returns the same user iff the role is `"admin"`; otherwise 403 |
| Workflow.AdminChecksAgree | fastapi-backend/main.py:37-42 | `require_admin` in the main module and the `get_current_admin` dependency accept exactly the same users |
| Dependencies.GetCurrentSupervisor | fastapi-backend/dependencies.py:13-16 | returns the same user iff the role is `"supervisor"`, so an admin gets 403 |
| Dependencies.NoUserPassesBoth | fastapi-backend/dependencies.py:8-16 | no user passes both guards |
| Workflow.SecretsAgree | fastapi-backend/auth/auth.py:13-14 | the three modules use the same key and algorithm, so each accepts the others' tokens |
| Workflow.StepEvolves | fastapi-backend/main.py:47-111 | no request removes or renames a user or changes a role; a set verified flag stays set; only a verification request sets it; only a reset changes a digest |
| Workflow.RunEvolves | fastapi-backend/models.py:5-12 | over any sequence of requests, users persist with the same name and role, verification is one-way, and the table stays keyed by username |
| Workflow.UnverifiedCannotLogin | fastapi-backend/main.py:121-127 | an unverified user gets 401 at login, even with the right password |
| Workflow.LoginTokenAuthenticates | fastapi-backend/auth/auth.py:46-58 | the login token authenticates as that user until it expires |
| Workflow.RegisterVerifyLogin | fastapi-backend/main.py:54-87 | a newly registered user cannot log in; after following the mailed link in time, the user logs in with the same password |
| Workflow.VerificationTokenNeverAuthenticates | fastapi-backend/auth/email_verification.py:15 | a verification token never authenticates a request |
| Workflow.VerificationTokenNeverResets | fastapi-backend/auth/password_reset.py:21-24 | an unexpired verification token is refused by the reset endpoint with 400 |
| Workflow.LoginTokenResetsPassword | fastapi-backend/auth/password_reset.py:17-29 | an unexpired login token authorises a password reset for its user |
| Workflow.LoginTokenVerifiesEmail | fastapi-backend/main.py:78-86 | an unexpired login token verifies its user's email through `main.py`; the router's handler as written (never mounted, so never served) would answer 404 |
| Workflow.ResetTokenAuthenticates | fastapi-backend/main.py:97-98 | the forgot-password token authenticates requests as that user until it expires |
| Workflow.ResetTokenExpires | fastapi-backend/main.py:98 | a reset token used more than 30 minutes after issue is refused with 401 |
| Workflow.ForgotThenReset | fastapi-backend/main.py:92-111 | after a timely reset, the new password logs a verified user in |

## Left out

- Wire format: base64url, JSON serialisation and HMAC-SHA256 are not
  modelled; a signature is "signed with this key".
- Registered claims other than `exp`: `aud`, `nbf`, `iat`, `iss` and `jti`
  are not validated. The backend never issues them.
- Token expiry: every signed token is modelled with an `exp`. Every minting
  site in the backend adds one.
- Two JWT libraries: the model uses one abstract decoder for both, and the
  decision at `now == exp` is left open.
- Clock: `datetime.utcnow()` is the integer `Clock.now` in whole seconds, so
  the sub-second part that encoding truncates is not modelled.
- bcrypt: salting, cost factor, constant-time comparison and the chance of
  a digest of one password verifying another are not modelled; the hasher
  is abstract.
- Email delivery: the FastMail send, the print stub and the background-task
  scheduling are left out. The model keeps only the recipient and the token.
  A compact token's text is not derived from the abstract token.
- Persistence: SQLAlchemy sessions, commits and concurrency are left out.
  The tables are immutable values returned by each handler.
- `/register` in `email_verification.py`: left out because `main.py` never
  mounts it.
- The router's `verify_email` (`email_verification.py`): it belongs to the
  same unmounted router, so no request reaches it; both `/verify-email`
  routes are served by `main.verify_email`. It is modelled as written
  (`EmailVerification.VerifyEmail`, `Workflow.RouterVerifyEmail`) only to
  compare the two readings of the token; its results are never served.
- Missing bearer header: the `Authorization` header that
  `OAuth2PasswordBearer` reads is not modelled. An absent header is another
  401, like `Malformed`.
- `GET /users/me`: left out; it only returns `get_current_user`.
- Rider bodies: the rider create, update and delete bodies are left out.
  Only the admin guard and the 404 lookup before them are modelled.
- Inspection reads: `GET /inspections` and the search endpoint are left
  out. They only query, and only require an authenticated user.
- Image writes: the upload's file write is left out; only the URL is kept.
- Untouched columns: timestamps and `Rider` columns the core never reads
  are left out.
- PyText.ParseInt: non-ASCII decimal digits, which Python's `int()` also
  accepts, are not modelled. Neither is the interpreter's 4300-digit limit
  on integer strings, which depends on the Python version and settings.
- Records.CreateInspection: the foreign key from `inspections.rider_id` to
  `riders.rider_id` (models.py:31) is not modelled. The handler does not
  check it, so a resolved rider id that names no rider (`"7"` with no rider
  7, or the falsy `0` kept when a location is given) makes the database
  reject the commit at main.py:263 with a server error. The model answers
  `Ok` with that id.
- Records.UpdateInspection: the same foreign key is not modelled. A rider
  id that names no rider fails at the commit at main.py:319, where the
  model answers `Ok`.
- Records.UpdateInspection: `rider_id` arrives already parsed. FastAPI's own
  422 for a non-integer form value is not modelled.

=== FILE: accounts.dfy ===
/** The account endpoints of fastapi-backend/main.py: the admin check,
    registration, email verification, the password-reset pair and login. */
module Accounts {
  import opened Common
  import opened Jwt
  import opened Models
  import Auth
  import JwtUtils
  import PasswordReset
  import EmailVerification

  const AccessTokenExpireMinutes := 30

  /** `require_admin(current_user)`: 403 unless the role is exactly `"admin"`. */
  function RequireAdmin(user: User): (r: Outcome)
    ensures r.Pass? <==> user.role == AdminRole
    ensures r.Fail? ==> r.status == Forbidden
  {
    if user.role != AdminRole then Fail(Forbidden) else Pass
  }

  /** What `POST /register` leaves behind: the new table, the created row,
      and the address the background task mails a verification link to. */
  datatype Registered = Registered(db: UserStore, user: User, mailTo: string)

  /** `POST /register`: the bearer must name a user (else 401) who is an admin
      (else 403); an existing username is refused with 400; otherwise a new
      unverified row with the digest of the password and the requested role. */
  function RegisterUser(db: UserStore, h: Auth.Hasher, bearer: Token, req: UserCreate,
                        salt: nat, clock: Clock): (r: Result<Registered>)
    ensures Auth.GetCurrentUser(db, bearer, clock).Err? ==> r == Err(Unauthorized)
    ensures var current := Auth.GetCurrentUser(db, bearer, clock);
            current.Ok? && current.value.role != AdminRole ==> r == Err(Forbidden)
    ensures var current := Auth.GetCurrentUser(db, bearer, clock);
            current.Ok? && current.value.role == AdminRole ==>
              (r.Err? <==> req.username in db) && (r.Err? ==> r.status == BadRequest)
    ensures r.Ok? ==> && req.username !in db
                      && r.value.user == User(req.username, h.hash(req.password, salt), req.role, false)
                      && r.value.db == db[req.username := r.value.user]
                      && r.value.mailTo == req.username
  {
    var current :- Auth.GetCurrentUser(db, bearer, clock);
    match RequireAdmin(current)
    case Fail(status) => Err(status)
    case Pass =>
      if req.username in db then Err(BadRequest)
      else
        var user := User(req.username, Auth.GetPasswordHash(h, req.password, salt), req.role, false);
        Ok(Registered(db[req.username := user], user, user.username))
  }

  /** The name `verify_email` looks up: `sub`, or `username` when `sub` is
      missing or empty. */
  function VerificationSubject(claims: Claims): (name: Option<string>)
    ensures Truthy(Get(claims, "sub")) ==> name == Some(claims["sub"])
    ensures !Truthy(Get(claims, "sub")) ==> name == Get(claims, "username")
  {
    Or(Get(claims, "sub"), Get(claims, "username"))
  }

  /** `GET /verify-email`: 400 when the token does not verify, 404 when the
      subject names no user (a missing subject matches no row), otherwise
      that user's flag is set and nothing else changes. */
  function VerifyEmail(db: UserStore, t: Token, clock: Clock): (r: Result<UserStore>)
    ensures EmailVerification.VerifyEmailToken(t, clock).None? ==> r == Err(BadRequest)
    ensures EmailVerification.VerifyEmailToken(t, clock).Some? ==>
              var name := VerificationSubject(t.claims);
              && (r.Ok? <==> name.Some? && name.value in db)
              && (r.Err? ==> r.status == NotFound)
              && (r.Ok? ==> r.value == db[name.value := db[name.value].(isVerified := true)])
  {
    match EmailVerification.VerifyEmailToken(t, clock)
    case None => Err(BadRequest)
    case Some(payload) =>
      match VerificationSubject(payload.claims)
      case None => Err(NotFound)
      case Some(name) =>
        if name !in db then Err(NotFound)
        else Ok(db[name := db[name].(isVerified := true)])
  }

  /** The message `forgot_password` hands to the (printing) mail stub. */
  datatype ResetMail = ResetMail(recipient: string, token: Token)

  /** `POST /forgot-password`: 404 for an unknown address; otherwise a token
      with only `sub` and the default 30-minute expiry of `jwt_utils`. */
  function ForgotPassword(db: UserStore, email: string, clock: Clock): (r: Result<ResetMail>)
    ensures r.Err? <==> email !in db
    ensures r.Err? ==> r.status == NotFound
    ensures r.Ok? ==> && r.value.recipient == db[email].username
                      && r.value.token.Signed?
                      && r.value.token.key == JwtUtils.SecretKey
                      && r.value.token.alg == HS256
                      && r.value.token.claims == map["sub" := db[email].username]
                      && r.value.token.exp == clock.now + 30 * Minute
  {
    if email !in db then Err(NotFound)
    else
      var user := db[email];
      Ok(ResetMail(user.username, JwtUtils.CreateAccessToken(map["sub" := user.username], None, clock)))
  }

  /** `POST /reset-password`: 401 when the token does not decode (raised inside
      `reset_password_with_token`), 400 when it has no usable `sub` or names
      no user, otherwise the table with that user's digest replaced. */
  function ResetPassword(db: UserStore, h: Auth.Hasher, t: Token, newPassword: string,
                         salt: nat, clock: Clock): (r: Result<UserStore>)
    ensures PasswordReset.VerifyToken(t, clock).Err? ==> r == Err(Unauthorized)
    ensures PasswordReset.VerifyToken(t, clock).Ok? ==>
              && (r.Ok? <==> Truthy(Get(t.claims, "sub")) && t.claims["sub"] in db)
              && (r.Err? ==> r.status == BadRequest)
    ensures r.Ok? ==> var name := t.claims["sub"];
                      r.value == db[name := db[name].(hashedPassword := h.hash(newPassword, salt))]
  {
    var out :- PasswordReset.ResetPasswordWithToken(db, h, t, newPassword, salt, clock);
    if !Truthy(out.username) then Err(BadRequest) else Ok(out.db)
  }

  /** `POST /token`: the password grant of section 4.3 of RFC 6749. 401 unless
      the user exists, the password verifies and the email is verified;
      otherwise a token whose only claim is `sub`, valid for 30 minutes. */
  function LoginForAccessToken(db: UserStore, h: Auth.Hasher, username: string, password: string,
                               clock: Clock): (r: Result<Token>)
    ensures r.Ok? <==> && username in db
                       && h.verify(password, db[username].hashedPassword)
                       && db[username].isVerified
    ensures r.Err? ==> r.status == Unauthorized
    ensures r.Ok? ==> && r.value.Signed?
                      && r.value.key == JwtUtils.SecretKey && r.value.alg == HS256
                      && r.value.claims == map["sub" := db[username].username]
                      && r.value.exp == clock.now + 30 * Minute
  {
    match Auth.AuthenticateUser(db, h, username, password)
    case None => Err(Unauthorized)
    case Some(user) =>
      if !user.isVerified then Err(Unauthorized)
      else
        Ok(JwtUtils.CreateAccessToken(map["sub" := user.username], Some(AccessTokenExpireMinutes * Minute), clock))
  }
}

=== FILE: auth.dfy ===
/** fastapi-backend/auth/auth.py: password hashing, credential checks, its
    own token minting and the `get_current_user` dependency. */
module Auth {
  import opened Common
  import opened Jwt
  import opened Models

  const SecretKey := "superlongsecretthatshouldbeidenticalinALLfiles"
  const Algorithm := HS256
  const DefaultExpireMinutes := 15

  /** The bcrypt context, kept abstract: `hash` draws a fresh salt on each
      call (here an explicit argument) and `verify` checks a plaintext against
      a digest. Salting, cost factor and timing are not modelled. */
  datatype Hasher = Hasher(hash: (string, nat) -> string, verify: (string, string) -> bool)

  /** The one promise assumed of the hasher: every digest verifies against
      the plaintext it was made from, whatever the salt. */
  ghost predicate Sound(h: Hasher) {
    forall password, salt :: h.verify(password, h.hash(password, salt))
  }

  /** `get_password_hash(password)`. */
  function GetPasswordHash(h: Hasher, password: string, salt: nat): (digest: string)
    ensures Sound(h) ==> h.verify(password, digest)
  {
    h.hash(password, salt)
  }

  /** `verify_password(plain, hashed)`: with a sound hasher, it accepts any
      digest made from `plain`, whatever salt was drawn. */
  function VerifyPassword(h: Hasher, plain: string, hashed: string): (ok: bool)
    ensures Sound(h) && (exists salt: nat :: hashed == h.hash(plain, salt)) ==> ok
  {
    h.verify(plain, hashed)
  }

  /** With a sound hasher a stored digest always accepts its own password. */
  lemma HashThenVerify(h: Hasher, password: string, salt: nat)
    requires Sound(h)
    ensures VerifyPassword(h, password, GetPasswordHash(h, password, salt))
  {
  }

  /** `authenticate_user(db, username, password)`: the stored user when the
      name exists and the password verifies against its digest, else `False`
      (here `None`). The verified flag is not consulted. */
  function AuthenticateUser(db: UserStore, h: Hasher, username: string, password: string): (r: Option<User>)
    ensures r.Some? <==> username in db && h.verify(password, db[username].hashedPassword)
    ensures r.Some? ==> r.value == db[username]
  {
    if username !in db then None
    else if !VerifyPassword(h, password, db[username].hashedPassword) then None
    else Some(db[username])
  }

  /** `utcnow() + (expires_delta if expires_delta else timedelta(minutes=15))`:
      a zero delta is falsy and falls back to the default as well. */
  function Expiry(expiresDelta: Option<int>, now: int): (exp: int)
    ensures expiresDelta.Some? && expiresDelta.value != 0 ==> exp == now + expiresDelta.value
    ensures expiresDelta.None? || expiresDelta.value == 0 ==> exp == now + 15 * Minute
  {
    if expiresDelta.Some? && expiresDelta.value != 0 then now + expiresDelta.value
    else now + DefaultExpireMinutes * Minute
  }

  /** The claims `create_access_token` signs: a copy of `data` in which `sub`
      is filled from `username` when `sub` is missing and `username` present. */
  function SessionClaims(data: map<string, string>): (c: Claims)
    ensures "sub" in data ==> "sub" in c && c["sub"] == data["sub"]
    ensures "sub" !in data && "username" in data ==> "sub" in c && c["sub"] == data["username"]
    ensures "sub" !in data && "username" !in data ==> "sub" !in c
    ensures forall k :: k in data && k != "exp" && k != "sub" ==> k in c && c[k] == data[k]
    ensures forall k :: k in c ==> k in data || k == "sub"
  {
    var copy := data - {"exp"};
    if "sub" !in copy && "username" in data then copy["sub" := data["username"]] else copy
  }

  /** `create_access_token(data, expires_delta)` of this module. */
  function CreateAccessToken(data: map<string, string>, expiresDelta: Option<int>, clock: Clock): (t: Token)
    ensures t.Signed? && t.key == SecretKey && t.alg == Algorithm
    ensures t.exp == Expiry(expiresDelta, clock.now)
    ensures t.claims == SessionClaims(data)
  {
    Signed(Algorithm, SessionClaims(data), Expiry(expiresDelta, clock.now), SecretKey)
  }

  /** `get_current_user(token, db)`: 401 when the token does not decode, when
      it has no `sub`, or when no user has that name; otherwise that user. */
  function GetCurrentUser(db: UserStore, bearer: Token, clock: Clock): (r: Result<User>)
    ensures r.Err? ==> r.status == Unauthorized
    ensures r.Ok? <==> bearer.Signed? && bearer.alg == Algorithm && bearer.key == SecretKey
                       && Current(bearer.exp, clock)
                       && "sub" in bearer.claims && bearer.claims["sub"] in db
    ensures r.Ok? ==> r.value == db[bearer.claims["sub"]]
  {
    match Decode(bearer, SecretKey, Algorithm, clock)
    case None => Err(Unauthorized)
    case Some(payload) =>
      match Get(payload.claims, "sub")
      case None => Err(Unauthorized)
      case Some(username) =>
        if username in db then Ok(db[username]) else Err(Unauthorized)
  }

  /** A token minted here authenticates, until it expires, as the user
      named by its `sub`, or by its `username` when it has no `sub`. */
  lemma CreateThenAuthenticate(db: UserStore, data: map<string, string>, expiresDelta: Option<int>,
                               issued: Clock, later: Clock)
    requires later.now < Expiry(expiresDelta, issued.now)
    requires "sub" in data || "username" in data
    ensures var name := if "sub" in data then data["sub"] else data["username"];
            GetCurrentUser(db, CreateAccessToken(data, expiresDelta, issued), later)
              == if name in db then Ok(db[name]) else Err(Unauthorized)
  {
  }

  /** Whatever else it carries, a token without a `sub` claim never
      authenticates a request. */
  lemma NoSubNeverAuthenticates(db: UserStore, bearer: Token, clock: Clock)
    requires bearer.Signed? && "sub" !in bearer.claims
    ensures GetCurrentUser(db, bearer, clock) == Err(Unauthorized)
  {
  }

  /** In a well-formed store the authenticated user is the one named by `sub`. */
  lemma CurrentUserIsSubject(db: UserStore, bearer: Token, clock: Clock)
    requires WellFormed(db)
    requires GetCurrentUser(db, bearer, clock).Ok?
    ensures bearer.Signed? && GetCurrentUser(db, bearer, clock).value.username == bearer.claims["sub"]
  {
  }
}

=== FILE: common.dfy ===
/** Shared result types and the few Python value conventions the backend relies on. */
module Common {

  /** `None` / a present value, as returned by `dict.get` or a query's `.first()`. */
  datatype Option<+T> = None | Some(value: T) {
    function GetOr(default: T): T {
      match this
      case Some(v) => v
      case None => default
    }
  }

  /** The HTTP statuses the backend raises through `HTTPException`. */
  datatype Status = BadRequest | Unauthorized | Forbidden | NotFound | UnprocessableEntity

  /** A handler either returns a value or raises an `HTTPException` with a status. */
  datatype Result<+T> = Ok(value: T) | Err(status: Status) {
    predicate IsFailure() {
      Err?
    }

    function PropagateFailure<U>(): Result<U>
      requires Err?
    {
      Err(status)
    }

    function Extract(): T
      requires Ok?
    {
      value
    }
  }

  /** A check that returns nothing on success and raises otherwise. */
  datatype Outcome = Pass | Fail(status: Status)

  /** `d.get(k)` on a string-valued dict. */
  function Get(d: map<string, string>, k: string): (r: Option<string>)
    ensures r.Some? <==> k in d
    ensures r.Some? ==> r.value == d[k]
  {
    if k in d then Some(d[k]) else None
  }

  /** Python truthiness of an optional string: `None` and `""` are falsy. */
  predicate Truthy(s: Option<string>) {
    s.Some? && s.value != ""
  }

  /** Python truthiness of an optional integer: `None` and `0` are falsy. */
  predicate IntTruthy(i: Option<int>) {
    i.Some? && i.value != 0
  }

  /** Python's `a or b` on optional strings: `a` when it is truthy, otherwise `b`. */
  function Or(a: Option<string>, b: Option<string>): (r: Option<string>)
    ensures Truthy(a) ==> r == a
    ensures !Truthy(a) ==> r == b
  {
    if Truthy(a) then a else b
  }
}

=== FILE: dependencies.dfy ===
/** fastapi-backend/dependencies.py: role dependencies layered on the
    authenticated user. */
module Dependencies {
  import opened Common
  import opened Models

  /** `get_current_admin(user)`: the same user when the role is `"admin"`, else 403. */
  function GetCurrentAdmin(user: User): (r: Result<User>)
    ensures r.Ok? <==> user.role == AdminRole
    ensures r.Ok? ==> r.value == user
    ensures r.Err? ==> r.status == Forbidden
  {
    if user.role != AdminRole then Err(Forbidden) else Ok(user)
  }

  /** `get_current_supervisor(user)`: the same user when the role is
      `"supervisor"`, else 403; an admin does not pass. */
  function GetCurrentSupervisor(user: User): (r: Result<User>)
    ensures r.Ok? <==> user.role == SupervisorRole
    ensures r.Ok? ==> r.value == user
    ensures r.Err? ==> r.status == Forbidden
  {
    if user.role != SupervisorRole then Err(Forbidden) else Ok(user)
  }

  /** The two guards are exclusive: no user passes both. */
  lemma NoUserPassesBoth(user: User)
    ensures !(GetCurrentAdmin(user).Ok? && GetCurrentSupervisor(user).Ok?)
  {
  }
}

=== FILE: email_verification.dfy ===
/** fastapi-backend/auth/email_verification.py: the verification token and
    link sent after registration, and the router's `verify_email` handler. */
module EmailVerification {
  import opened Common
  import opened Jwt
  import opened Models
  import JwtUtils

  const LinkPrefix := "http://localhost:8000/verify-email?token="

  /** What `send_verification_email(username)` puts in the message: the
      recipient and the token. The link wraps the token's compact form. */
  datatype VerificationMail = VerificationMail(recipient: string, token: Token)

  /** `send_verification_email(username)` without the delivery: a token whose
      only claim is `username` (no `sub`), expiring 24 hours after issue. */
  function SendVerificationEmail(username: string, clock: Clock): (m: VerificationMail)
    ensures m.recipient == username
    ensures m.token.Signed? && m.token.key == JwtUtils.SecretKey && m.token.alg == HS256
    ensures m.token.claims == map["username" := username]
    ensures m.token.exp == clock.now + 24 * Hour
  {
    var token := JwtUtils.CreateJwtToken(map["username" := username], Some(24 * Hour), clock);
    VerificationMail(username, token)
  }

  /** The link in the message, around the token's compact serialization. */
  function VerificationLink(compact: string): string {
    LinkPrefix + compact
  }

  /** Characters a URL query value carries verbatim: the unreserved set of
      section 2.3 of RFC 3986. A compact JWS uses only base64url and `.`. */
  predicate Unreserved(c: char) {
    ('A' <= c <= 'Z') || ('a' <= c <= 'z') || ('0' <= c <= '9')
    || c == '-' || c == '.' || c == '_' || c == '~'
  }

  /** The raw text of a query value: everything up to the next `&` or `#`. */
  function ValueText(s: string): (v: string)
    ensures |v| <= |s| && v == s[..|v|]
    ensures |v| < |s| ==> s[|v|] == '&' || s[|v|] == '#'
    ensures forall i :: 0 <= i < |v| ==> v[i] != '&' && v[i] != '#'
  {
    if s == [] || s[0] == '&' || s[0] == '#' then []
    else [s[0]] + ValueText(s[1..])
  }

  /** The `token` query parameter of a link to this endpoint, before
      percent-decoding; `None` when the link is not such a link. */
  function TokenParameter(link: string): (r: Option<string>)
    ensures r.Some? <==> LinkPrefix <= link
  {
    if LinkPrefix <= link then Some(ValueText(link[|LinkPrefix|..])) else None
  }

  lemma {:induction false} ValueTextOfUnreserved(s: string)
    requires forall i :: 0 <= i < |s| ==> Unreserved(s[i])
    ensures ValueText(s) == s
  {
    if s != [] {
      ValueTextOfUnreserved(s[1..]);
    }
  }

  /** The link embeds the compact token verbatim as the `token` parameter:
      it is read back unchanged, and needs no percent-decoding. */
  lemma LinkCarriesToken(compact: string)
    requires forall i :: 0 <= i < |compact| ==> Unreserved(compact[i])
    ensures TokenParameter(VerificationLink(compact)) == Some(compact)
  {
    var link := VerificationLink(compact);
    assert link[|LinkPrefix|..] == compact;
    ValueTextOfUnreserved(compact);
  }

  /** The router's `verify_email(token)`: 400 when the token does not verify;
      the user is looked up by the `username` claim only, 404 when absent;
      otherwise that user's flag becomes true. Returns the new user table.
      The router it belongs to is never mounted, so this handler is modelled
      as written but no request reaches it. */
  function VerifyEmail(db: UserStore, t: Token, clock: Clock): (r: Result<UserStore>)
    ensures JwtUtils.VerifyJwtToken(t, clock).None? ==> r == Err(BadRequest)
    ensures JwtUtils.VerifyJwtToken(t, clock).Some? ==>
              (r.Ok? <==> "username" in t.claims && t.claims["username"] in db)
    ensures JwtUtils.VerifyJwtToken(t, clock).Some? && r.Err? ==> r.status == NotFound
    ensures r.Ok? ==> t.Signed? && "username" in t.claims
                      && var name := t.claims["username"];
                         name in db && r.value == db[name := db[name].(isVerified := true)]
  {
    match JwtUtils.VerifyJwtToken(t, clock)
    case None => Err(BadRequest)
    case Some(payload) =>
      match Get(payload.claims, "username")
      case None => Err(NotFound)
      case Some(name) =>
        if name !in db then Err(NotFound)
        else Ok(db[name := db[name].(isVerified := true)])
  }

  /** `verify_email_token(token)` delegates to `verify_jwt_token`. */
  function VerifyEmailToken(t: Token, clock: Clock): (r: Option<Payload>)
    ensures r == JwtUtils.VerifyToken(t, clock)
  {
    JwtUtils.VerifyJwtToken(t, clock)
  }

  /** Verifying twice leaves the flag set: the second run succeeds and
      changes nothing further. */
  lemma VerifyEmailIdempotent(db: UserStore, t: Token, clock: Clock)
    requires VerifyEmail(db, t, clock).Ok?
    ensures VerifyEmail(VerifyEmail(db, t, clock).value, t, clock) == VerifyEmail(db, t, clock)
  {
    var name := t.claims["username"];
    var once := VerifyEmail(db, t, clock).value;
    assert once[name].isVerified;
    assert once[name := once[name].(isVerified := true)] == once;
  }

  /** The mailed token, presented to this handler before it expires, verifies
      the recipient, whatever the boundary behaviour of the library. */
  lemma MailedTokenVerifies(db: UserStore, username: string, issued: Clock, later: Clock)
    requires username in db
    requires later.now < issued.now + 24 * Hour
    ensures VerifyEmail(db, SendVerificationEmail(username, issued).token, later)
         == Ok(db[username := db[username].(isVerified := true)])
  {
  }
}

=== FILE: jwt.dfy ===
/** An abstract JSON Web Token (RFC 7519) signed with HS256 (section 3.2 of
    RFC 7518). The wire encoding and the HMAC are abstracted away: a signed
    token records the key it was signed with, and a signature verifies
    exactly when that key is the verifier's key. */
module Jwt {
  import opened Common

  const HS256 := "HS256"
  const Minute := 60
  const Hour := 60 * Minute

  /** The claims of a payload other than `exp`, which is kept apart. */
  type Claims = m: map<string, string> | "exp" !in m witness map[]

  datatype Token =
    | Signed(alg: string, claims: Claims, exp: int, key: string)
    | Malformed  // anything that does not parse as a compact JWS

  /** A decoded payload: the claims together with the `exp` claim. */
  datatype Payload = Payload(claims: Claims, exp: int)

  /** The time seen by an operation, in whole seconds since the epoch. At the
      instant `now == exp` the two decoding libraries may differ; the flag
      records whether the library in use still accepts the token then. */
  datatype Clock = Clock(now: int, acceptsAtExpiry: bool)

  /** `jwt.encode(to_encode, key, algorithm=alg)` where `to_encode` is `data`
      updated with `{"exp": exp}`: the new `exp` replaces any the data had. */
  function Encode(data: map<string, string>, exp: int, key: string, alg: string): (t: Token)
    ensures t.Signed? && t.alg == alg && t.key == key && t.exp == exp
    ensures forall k :: k in data && k != "exp" ==> k in t.claims && t.claims[k] == data[k]
    ensures forall k :: k in t.claims ==> k in data
  {
    Signed(alg, data - {"exp"}, exp, key)
  }

  /** The `exp` rule of section 4.1.4 of RFC 7519: a token must not be accepted
      on or after its expiry time, up to the library's choice at the boundary. */
  predicate Current(exp: int, clock: Clock) {
    clock.now < exp || (clock.now == exp && clock.acceptsAtExpiry)
  }

  /** `jwt.decode(token, key, algorithms=[alg])`: the payload, or `None` where
      the library raises (malformed, wrong algorithm, bad signature, expired). */
  function Decode(t: Token, key: string, alg: string, clock: Clock): (r: Option<Payload>)
    ensures r.Some? <==> t.Signed? && t.alg == alg && t.key == key && Current(t.exp, clock)
    ensures r.Some? ==> r.value == Payload(t.claims, t.exp)
  {
    match t
    case Malformed => None
    case Signed(a, claims, exp, k) =>
      if a != alg || k != key then None
      else if !Current(exp, clock) then None
      else Some(Payload(claims, exp))
  }

  /** A token signed with `key` decodes, before its expiry, to exactly the
      data it was minted from (without any caller-supplied `exp`) plus `exp`. */
  lemma EncodeDecode(data: map<string, string>, exp: int, key: string, alg: string, clock: Clock)
    requires clock.now < exp
    ensures Decode(Encode(data, exp, key, alg), key, alg, clock) == Some(Payload(data - {"exp"}, exp))
  {
  }

  /** Once the clock has passed `exp`, no key decodes the token. */
  lemma ExpiredNeverDecodes(t: Token, key: string, alg: string, clock: Clock)
    requires t.Signed? && t.exp < clock.now
    ensures Decode(t, key, alg, clock).None?
  {
  }
}

=== FILE: jwt_utils.dfy ===
/** fastapi-backend/auth/jwt_utils.py: the token helpers `main.py` uses for
    login and password-reset tokens, and (under alias names) for
    email-verification tokens. */
module JwtUtils {
  import opened Common
  import opened Jwt

  const SecretKey := "superlongsecretthatshouldbeidenticalinALLfiles"
  const Algorithm := HS256
  const AccessTokenExpireMinutes := 30

  /** `datetime.utcnow() + (expires_delta or timedelta(minutes=30))`, in seconds.
      A zero `timedelta` is falsy, so it falls back to the default too. */
  function AccessExpiry(expiresDelta: Option<int>, now: int): (exp: int)
    ensures expiresDelta.Some? && expiresDelta.value != 0 ==> exp == now + expiresDelta.value
    ensures expiresDelta.None? || expiresDelta.value == 0 ==> exp == now + 30 * Minute
  {
    match expiresDelta
    case Some(d) => if d != 0 then now + d else now + AccessTokenExpireMinutes * Minute
    case None => now + AccessTokenExpireMinutes * Minute
  }

  /** `create_access_token(data, expires_delta)`: the data's claims unchanged,
      `exp` added, signed with this module's key. The caller's dict is a
      value here, so it cannot be changed. */
  function CreateAccessToken(data: map<string, string>, expiresDelta: Option<int>, clock: Clock): (t: Token)
    ensures t.Signed? && t.key == SecretKey && t.alg == Algorithm
    ensures t.exp == AccessExpiry(expiresDelta, clock.now)
    ensures forall k :: k in data && k != "exp" ==> k in t.claims && t.claims[k] == data[k]
    ensures forall k :: k in t.claims ==> k in data
  {
    Encode(data, AccessExpiry(expiresDelta, clock.now), SecretKey, Algorithm)
  }

  /** `verify_token(token)`: the payload, or `None` (never an exception) when
      the token is expired, badly signed or malformed. */
  function VerifyToken(t: Token, clock: Clock): (r: Option<Payload>)
    ensures r.Some? <==> t.Signed? && t.alg == Algorithm && t.key == SecretKey && Current(t.exp, clock)
    ensures r.Some? ==> r.value == Payload(t.claims, t.exp)
  {
    Decode(t, SecretKey, Algorithm, clock)
  }

  /** `create_jwt_token` is bound to the very same function. */
  function CreateJwtToken(data: map<string, string>, expiresDelta: Option<int>, clock: Clock): (t: Token)
    ensures t == CreateAccessToken(data, expiresDelta, clock)
  {
    CreateAccessToken(data, expiresDelta, clock)
  }

  /** `verify_jwt_token` is bound to the very same function. */
  function VerifyJwtToken(t: Token, clock: Clock): (r: Option<Payload>)
    ensures r == VerifyToken(t, clock)
  {
    VerifyToken(t, clock)
  }

  /** Before its expiry a freshly minted token verifies to the caller's data
      (minus any `exp` of its own) plus the computed `exp`. */
  lemma CreateVerifyRoundTrip(data: map<string, string>, expiresDelta: Option<int>, issued: Clock, later: Clock)
    requires later.now < AccessExpiry(expiresDelta, issued.now)
    ensures VerifyToken(CreateAccessToken(data, expiresDelta, issued), later)
         == Some(Payload(data - {"exp"}, AccessExpiry(expiresDelta, issued.now)))
  {
    EncodeDecode(data, AccessExpiry(expiresDelta, issued.now), SecretKey, Algorithm, later);
  }

  /** After expiry the same token verifies to `None`. */
  lemma ExpiredTokenIsNone(data: map<string, string>, expiresDelta: Option<int>, issued: Clock, later: Clock)
    requires later.now > AccessExpiry(expiresDelta, issued.now)
    ensures VerifyToken(CreateAccessToken(data, expiresDelta, issued), later).None?
  {
  }
}

=== FILE: models.dfy ===
/** The persisted records (fastapi-backend/models.py) and the registration
    request (fastapi-backend/schemas.py), with the stores they live in. */
module Models {
  import opened Common

  const AdminRole := "admin"
  const SupervisorRole := "supervisor"

  /** A row of the `users` table. `username` (an email address) is unique. */
  datatype User = User(username: string, hashedPassword: string, role: string, isVerified: bool)

  /** The `users` table, keyed by the unique `username` column. */
  type UserStore = map<string, User>

  /** Every row sits under its own username, so a lookup by key is the
      query `filter(User.username == name).first()`. */
  ghost predicate WellFormed(db: UserStore) {
    forall name :: name in db ==> db[name].username == name
  }

  /** The body of `POST /register`. */
  datatype UserCreate = UserCreate(username: string, password: string, role: string)

  /** Builds a registration request; an omitted role defaults to `"supervisor"`. */
  function MakeUserCreate(username: string, password: string, role: Option<string>): (r: UserCreate)
    ensures r.username == username && r.password == password
    ensures role.None? ==> r.role == SupervisorRole
    ensures role.Some? ==> r.role == role.value
  {
    UserCreate(username, password, role.GetOr(SupervisorRole))
  }

  /** A row of the `riders` table; only the columns the core reads. */
  datatype Rider = Rider(riderId: int, idNumber: string)

  /** The six boolean checks of an inspection. */
  datatype Checks = Checks(helmetOk: bool, boxOk: bool, idOk: bool, zoneOk: bool,
                           clothesOk: bool, wellBehaved: bool)

  /** A row of the `inspections` table (the server-side timestamp is omitted). */
  datatype Inspection = Inspection(
    id: int,
    riderId: Option<int>,
    idNumber: Option<string>,
    inspectedBy: string,
    checks: Checks,
    city: Option<string>,
    location: Option<string>,
    imageUrl: Option<string>,
    comments: Option<string>)

  /** The `inspections` table, keyed by its primary key. */
  type InspectionStore = map<int, Inspection>
}

=== FILE: password_reset.dfy ===
/** fastapi-backend/auth/password_reset.py: token helpers for the reset and
    verification flows, and the password replacement itself. */
module PasswordReset {
  import opened Common
  import opened Jwt
  import opened Models
  import Auth

  const SecretKey := "superlongsecretthatshouldbeidenticalinALLfiles"
  const Algorithm := HS256
  const DefaultExpiresMinutes := 60
  const ResetExpiresMinutes := 30
  const VerificationExpiresMinutes := 60 * 24

  /** `create_token(data, expires_minutes=60)`: `exp` is `now` plus the given
      minutes (no truthiness here: zero minutes means expiring at once), and
      the other claims are copied unchanged. */
  function CreateToken(data: map<string, string>, expiresMinutes: Option<int>, clock: Clock): (t: Token)
    ensures t.Signed? && t.key == SecretKey && t.alg == Algorithm
    ensures t.exp == clock.now + expiresMinutes.GetOr(60) * Minute
    ensures forall k :: k in data && k != "exp" ==> k in t.claims && t.claims[k] == data[k]
    ensures forall k :: k in t.claims ==> k in data
  {
    Encode(data, clock.now + expiresMinutes.GetOr(DefaultExpiresMinutes) * Minute, SecretKey, Algorithm)
  }

  /** `verify_token(token)` of this module: raises 401 on any decoding failure
      instead of returning `None`. */
  function VerifyToken(t: Token, clock: Clock): (r: Result<Payload>)
    ensures r.Err? ==> r.status == Unauthorized
    ensures r.Ok? <==> t.Signed? && t.alg == Algorithm && t.key == SecretKey && Current(t.exp, clock)
    ensures r.Ok? ==> r.value == Payload(t.claims, t.exp)
  {
    match Decode(t, SecretKey, Algorithm, clock)
    case None => Err(Unauthorized)
    case Some(payload) => Ok(payload)
  }

  /** What `reset_password_with_token` leaves behind: the username it returns
      (`None` when it gives up) and the user table afterwards. */
  datatype ResetOutcome = ResetOutcome(username: Option<string>, db: UserStore)

  /** `reset_password_with_token(db, token, new_password)`. The 401 raised by
      `verify_token` propagates. A missing or empty `sub`, or an unknown user,
      gives `None` and changes nothing. Otherwise only that user's digest is
      replaced. No claim says what the token was issued for. */
  function ResetPasswordWithToken(db: UserStore, h: Auth.Hasher, t: Token, newPassword: string,
                                  salt: nat, clock: Clock): (r: Result<ResetOutcome>)
    ensures r.Err? <==> VerifyToken(t, clock).Err?
    ensures r.Err? ==> r.status == Unauthorized
    ensures r.Ok? && r.value.username.None? ==> r.value.db == db
    ensures r.Ok? ==> (r.value.username.Some? <==>
                       t.Signed? && Truthy(Get(t.claims, "sub")) && t.claims["sub"] in db)
    ensures r.Ok? && r.value.username.Some? ==>
              var name := r.value.username.value;
              && t.Signed? && name == t.claims["sub"] && name in db
              && r.value.db == db[name := db[name].(hashedPassword := h.hash(newPassword, salt))]
  {
    var payload :- VerifyToken(t, clock);
    var username := Get(payload.claims, "sub");
    if !Truthy(username) then Ok(ResetOutcome(None, db))
    else if username.value !in db then Ok(ResetOutcome(None, db))
    else
      var name := username.value;
      var user := db[name];
      Ok(ResetOutcome(Some(name), db[name := user.(hashedPassword := Auth.GetPasswordHash(h, newPassword, salt))]))
  }

  /** `create_password_reset_token(username)`: only `sub`, 30 minutes. */
  function CreatePasswordResetToken(username: string, clock: Clock): (t: Token)
    ensures t.Signed? && t.key == SecretKey && t.alg == HS256 && t.claims == map["sub" := username]
    ensures t.exp == clock.now + 30 * Minute
  {
    CreateToken(map["sub" := username], Some(ResetExpiresMinutes), clock)
  }

  /** `create_email_verification_token(username)`: only `sub`, 24 hours. */
  function CreateEmailVerificationToken(username: string, clock: Clock): (t: Token)
    ensures t.Signed? && t.key == SecretKey && t.alg == HS256 && t.claims == map["sub" := username]
    ensures t.exp == clock.now + 24 * Hour
  {
    CreateToken(map["sub" := username], Some(VerificationExpiresMinutes), clock)
  }

  /** `get_username_from_token(token)`: the `sub` claim; 401 when the token
      does not decode, 400 when it has no `sub` (an empty one is returned). */
  function GetUsernameFromToken(t: Token, clock: Clock): (r: Result<string>)
    ensures VerifyToken(t, clock).Err? ==> r == Err(Unauthorized)
    ensures VerifyToken(t, clock).Ok? && "sub" !in t.claims ==> r == Err(BadRequest)
    ensures VerifyToken(t, clock).Ok? && "sub" in t.claims ==> r == Ok(t.claims["sub"])
  {
    var payload :- VerifyToken(t, clock);
    match Get(payload.claims, "sub")
    case None => Err(BadRequest)
    case Some(name) => Ok(name)
  }

  /** Before expiry a created token verifies to its data (minus any
      caller-supplied `exp`) plus `exp`; from one second past expiry, with 401. */
  lemma CreateVerifyRoundTrip(data: map<string, string>, expiresMinutes: Option<int>, issued: Clock, later: Clock)
    ensures var t := CreateToken(data, expiresMinutes, issued);
            && (later.now < t.exp ==> VerifyToken(t, later) == Ok(Payload(data - {"exp"}, t.exp)))
            && (later.now > t.exp ==> VerifyToken(t, later) == Err(Unauthorized))
  {
  }

  /** The reset and verification tokens of this module name their user:
      before they expire, `get_username_from_token` gives back the username. */
  lemma IssuedTokensNameUser(username: string, issued: Clock, later: Clock)
    ensures later.now < issued.now + 30 * Minute ==>
              GetUsernameFromToken(CreatePasswordResetToken(username, issued), later) == Ok(username)
    ensures later.now < issued.now + 24 * Hour ==>
              GetUsernameFromToken(CreateEmailVerificationToken(username, issued), later) == Ok(username)
  {
  }

  /** A reset leaves every other user, and every other field of the target
      user, exactly as it was. */
  lemma ResetTouchesOnlyDigest(db: UserStore, h: Auth.Hasher, t: Token, newPassword: string,
                               salt: nat, clock: Clock)
    requires ResetPasswordWithToken(db, h, t, newPassword, salt, clock).Ok?
    ensures var out := ResetPasswordWithToken(db, h, t, newPassword, salt, clock).value;
            && out.db.Keys == db.Keys
            && (forall name :: name in db && Some(name) != out.username ==> out.db[name] == db[name])
            && forall name :: name in db ==>
                 && out.db[name].username == db[name].username
                 && out.db[name].role == db[name].role
                 && out.db[name].isVerified == db[name].isVerified
  {
  }

  /** After a successful reset the new password authenticates the user. */
  lemma ResetThenAuthenticate(db: UserStore, h: Auth.Hasher, t: Token, newPassword: string,
                              salt: nat, clock: Clock)
    requires Auth.Sound(h)
    requires ResetPasswordWithToken(db, h, t, newPassword, salt, clock).Ok?
    requires ResetPasswordWithToken(db, h, t, newPassword, salt, clock).value.username.Some?
    ensures var out := ResetPasswordWithToken(db, h, t, newPassword, salt, clock).value;
            Auth.AuthenticateUser(out.db, h, out.username.value, newPassword) == Some(out.db[out.username.value])
  {
    var out := ResetPasswordWithToken(db, h, t, newPassword, salt, clock).value;
    Auth.HashThenVerify(h, newPassword, salt);
    assert out.db[out.username.value].hashedPassword == h.hash(newPassword, salt);
  }
}

=== FILE: py_text.dfy ===
/** The two Python built-ins the inspection form relies on: `str.strip()`
    and `int(str)` in base 10, restricted to ASCII digits. */
module PyText {
  import opened Common

  /** `str.isspace()` for one character: the characters `strip()` removes. */
  predicate IsSpace(c: char) {
    ('\t' <= c <= '\r') || ('\U{1C}' <= c <= '\U{1F}') || c == ' '
    || c == '\U{85}' || c == '\U{A0}' || c == '\U{1680}'
    || ('\U{2000}' <= c <= '\U{200A}') || c == '\U{2028}' || c == '\U{2029}'
    || c == '\U{202F}' || c == '\U{205F}' || c == '\U{3000}'
  }

  /** Which whitespace is dropped at the ends: all of `str.isspace()` for
      `strip()`, or the narrower set `int()` skips. `int()` copies every ASCII
      character as it is and then skips only the C-locale spaces (tab, line
      feed, vertical tab, form feed, carriage return, space), so the
      information separators U+001C to U+001F are not skipped there. */
  datatype Trim = StripSpaces | IntSpaces

  predicate Skipped(c: char, kind: Trim) {
    match kind
    case StripSpaces => IsSpace(c)
    case IntSpaces => IsSpace(c) && !('\U{1C}' <= c <= '\U{1F}')
  }

  predicate IsDigit(c: char) {
    '0' <= c <= '9'
  }

  /** The position of the first character at or after `k` that is not
      dropped (`|s|` when there is none). */
  function SkipSpaces(s: string, k: nat, kind: Trim): (n: nat)
    requires k <= |s|
    ensures k <= n <= |s|
    ensures forall i :: k <= i < n ==> Skipped(s[i], kind)
    ensures n < |s| ==> !Skipped(s[n], kind)
    decreases |s| - k
  {
    if k < |s| && Skipped(s[k], kind) then SkipSpaces(s, k + 1, kind) else k
  }

  /** The end of `s[..e]` once trailing dropped characters are removed. */
  function SkipSpacesBack(s: string, e: nat, kind: Trim): (n: nat)
    requires e <= |s|
    ensures n <= e
    ensures forall i :: n <= i < e ==> Skipped(s[i], kind)
    ensures n > 0 ==> !Skipped(s[n - 1], kind)
  {
    if e > 0 && Skipped(s[e - 1], kind) then SkipSpacesBack(s, e - 1, kind) else e
  }

  /** How many characters are dropped at the front of `s`. */
  function LeadingSpaces(s: string, kind: Trim): (n: nat)
    ensures n <= |s|
    ensures forall i :: 0 <= i < n ==> Skipped(s[i], kind)
    ensures n < |s| ==> !Skipped(s[n], kind)
  {
    SkipSpaces(s, 0, kind)
  }

  /** The slice of `s` left after dropping the `kind` whitespace at both ends;
      it neither starts nor ends with such a character, and only such
      characters were dropped. */
  function Trimmed(s: string, kind: Trim): (r: string)
    ensures LeadingSpaces(s, kind) + |r| <= |s|
    ensures r == s[LeadingSpaces(s, kind)..LeadingSpaces(s, kind) + |r|]
    ensures forall i :: LeadingSpaces(s, kind) + |r| <= i < |s| ==> Skipped(s[i], kind)
    ensures r != [] ==> !Skipped(r[0], kind) && !Skipped(r[|r| - 1], kind)
  {
    var lo := LeadingSpaces(s, kind);
    var hi := SkipSpacesBack(s, |s|, kind);
    if hi <= lo then [] else s[lo..hi]
  }

  /** `s.strip()`. */
  function Strip(s: string): (r: string)
    ensures LeadingSpaces(s, StripSpaces) + |r| <= |s|
    ensures r == s[LeadingSpaces(s, StripSpaces)..LeadingSpaces(s, StripSpaces) + |r|]
    ensures forall i :: LeadingSpaces(s, StripSpaces) + |r| <= i < |s| ==> IsSpace(s[i])
    ensures r != [] ==> !IsSpace(r[0]) && !IsSpace(r[|r| - 1])
  {
    Trimmed(s, StripSpaces)
  }

  /** The digits of a base-10 literal as `int()` accepts them: digits, with
      single underscores allowed only between two digits. */
  predicate Grouped(ds: string) {
    && |ds| > 0
    && IsDigit(ds[0])
    && IsDigit(ds[|ds| - 1])
    && forall i :: 0 <= i < |ds| ==>
         IsDigit(ds[i]) || (ds[i] == '_' && i + 1 < |ds| && IsDigit(ds[i + 1]))
  }

  /** `ds` with every `_` removed and the other characters kept in order
      (`DropUnderscoresAppend` together with the one-character cases
      determines it). */
  function DropUnderscores(ds: string): (r: string)
    ensures |r| <= |ds|
    ensures forall i :: 0 <= i < |r| ==> r[i] != '_'
    ensures |ds| == 1 ==> r == (if ds[0] == '_' then [] else ds)
    ensures (forall i :: 0 <= i < |ds| ==> IsDigit(ds[i]) || ds[i] == '_')
            ==> forall i :: 0 <= i < |r| ==> IsDigit(r[i])
  {
    if ds == [] then []
    else if ds[|ds| - 1] == '_' then DropUnderscores(ds[..|ds| - 1])
    else DropUnderscores(ds[..|ds| - 1]) + [ds[|ds| - 1]]
  }

  function DigitValue(c: char): (d: nat)
    requires IsDigit(c)
    ensures d < 10
  {
    c as int - '0' as int
  }

  /** The value of a string of ASCII digits, most significant first. */
  function DigitsValue(ds: string): nat
    requires forall i :: 0 <= i < |ds| ==> IsDigit(ds[i])
  {
    if ds == [] then 0
    else DigitsValue(ds[..|ds| - 1]) * 10 + DigitValue(ds[|ds| - 1])
  }

  /** A grouped literal holds only digits and underscores. */
  lemma GroupedChars(ds: string)
    requires Grouped(ds)
    ensures forall i :: 0 <= i < |ds| ==> IsDigit(ds[i]) || ds[i] == '_'
  {
    forall i | 0 <= i < |ds| ensures IsDigit(ds[i]) || ds[i] == '_' {
      assert IsDigit(ds[i]) || (ds[i] == '_' && i + 1 < |ds| && IsDigit(ds[i + 1]));
    }
  }

  /** The value of a grouped literal: its digits, underscores ignored. */
  function GroupedValue(ds: string): nat
    requires Grouped(ds)
  {
    GroupedChars(ds);
    DigitsValue(DropUnderscores(ds))
  }

  function ParseDigits(ds: string): (r: Option<nat>)
    ensures r.Some? <==> Grouped(ds)
    ensures r.Some? ==> r.value == GroupedValue(ds)
  {
    if Grouped(ds) then Some(GroupedValue(ds)) else None
  }

  predicate IsSign(c: char) {
    c == '+' || c == '-'
  }

  /** The text `int(s)` reads: `s` without the whitespace `int()` skips. */
  function IntText(s: string): string {
    Trimmed(s, IntSpaces)
  }

  /** What `int()` accepts once the surrounding whitespace is gone: grouped
      digits, optionally after one sign. */
  predicate IntLiteral(t: string) {
    Grouped(t) || (|t| > 0 && IsSign(t[0]) && Grouped(t[1..]))
  }

  /** The number such a literal denotes. */
  function LiteralValue(t: string): int
    requires IntLiteral(t)
  {
    if Grouped(t) then GroupedValue(t)
    else if t[0] == '-' then 0 - GroupedValue(t[1..])
    else GroupedValue(t[1..])
  }

  /** `int(s)` in base 10: the whitespace `int()` skips is ignored at both
      ends, then one optional sign and grouped digits; anything else raises
      `ValueError` (here `None`). */
  function ParseInt(s: string): (r: Option<int>)
    ensures r.Some? <==> IntLiteral(IntText(s))
    ensures r.Some? ==> r.value == LiteralValue(IntText(s))
    ensures r.Some? && IntText(s)[0] == '-' ==> r.value <= 0
    ensures r.Some? && IntText(s)[0] != '-' ==> r.value >= 0
    ensures r.Some? ==> Strip(s) != []
  {
    var t := IntText(s);
    if t != [] && IsSign(t[0]) then
      match ParseDigits(t[1..])
      case None => None
      case Some(n) => if t[0] == '-' then Some(0 - n) else Some(n)
    else
      match ParseDigits(t)
      case None => None
      case Some(n) => Some(n)
  }

  function DigitChar(d: nat): (c: char)
    requires d < 10
    ensures IsDigit(c) && c as int - '0' as int == d
  {
    ('0' as int + d) as char
  }

  /** The decimal digits of `n`, without leading zeros. */
  function NatDigits(n: nat): (ds: string)
    ensures |ds| > 0
    ensures forall i :: 0 <= i < |ds| ==> IsDigit(ds[i])
  {
    if n < 10 then [DigitChar(n)] else NatDigits(n / 10) + [DigitChar(n % 10)]
  }

  /** `str(n)`. */
  function Show(n: int): (s: string)
    ensures |s| > 0 && IsDigit(s[|s| - 1])
  {
    if n < 0 then "-" + NatDigits(-n) else NatDigits(n)
  }

  lemma {:induction false} NatDigitsValue(n: nat)
    ensures DigitsValue(NatDigits(n)) == n
  {
    var ds := NatDigits(n);
    if n >= 10 {
      NatDigitsValue(n / 10);
      assert ds[..|ds| - 1] == NatDigits(n / 10);
    }
  }

  lemma {:induction false} DropUnderscoresOfDigits(ds: string)
    requires forall i :: 0 <= i < |ds| ==> IsDigit(ds[i])
    ensures DropUnderscores(ds) == ds
  {
    if ds != [] {
      DropUnderscoresOfDigits(ds[..|ds| - 1]);
    }
  }

  /** Removing underscores distributes over concatenation. */
  lemma {:induction false} DropUnderscoresAppend(a: string, b: string)
    ensures DropUnderscores(a + b) == DropUnderscores(a) + DropUnderscores(b)
    decreases |b|
  {
    if b == [] {
      assert a + b == a;
    } else {
      var b' := b[..|b| - 1];
      assert (a + b)[..|a + b| - 1] == a + b';
      DropUnderscoresAppend(a, b');
    }
  }

  /** A grouped literal with nothing around it reads as its value. */
  lemma ParseGrouped(s: string)
    requires Grouped(s)
    ensures ParseInt(s) == Some(GroupedValue(s))
  {
    TrimmedOfTrimmed(s, IntSpaces);
  }

  /** A sign followed by a grouped literal reads as the signed value. */
  lemma ParseSigned(s: string)
    requires |s| > 1 && IsSign(s[0]) && Grouped(s[1..])
    ensures ParseInt(s) == Some(if s[0] == '-' then 0 - GroupedValue(s[1..]) else GroupedValue(s[1..]))
  {
    assert IsDigit(s[1..][|s| - 2]);
    TrimmedOfTrimmed(s, IntSpaces);
  }

  lemma TrimmedOfTrimmed(s: string, kind: Trim)
    requires s != [] && !Skipped(s[0], kind) && !Skipped(s[|s| - 1], kind)
    ensures Trimmed(s, kind) == s
  {
  }

  lemma ParseDigitsOfNat(m: nat)
    ensures ParseDigits(NatDigits(m)) == Some(m)
  {
    var ds := NatDigits(m);
    NatDigitsValue(m);
    DropUnderscoresOfDigits(ds);
    assert Grouped(ds);
  }

  lemma ParseUnsigned(s: string, m: nat)
    requires s == NatDigits(m)
    ensures ParseInt(s) == Some(m)
  {
    assert IsDigit(s[0]) && IsDigit(s[|s| - 1]);
    TrimmedOfTrimmed(s, IntSpaces);
    ParseDigitsOfNat(m);
  }

  lemma ParseMinus(s: string, n: nat)
    requires |IntText(s)| > 0 && IntText(s)[0] == '-'
    requires ParseDigits(IntText(s)[1..]) == Some(n)
    ensures ParseInt(s) == Some(0 - n)
  {
  }

  lemma ParseNegative(s: string, m: nat)
    requires s == "-" + NatDigits(m)
    ensures ParseInt(s) == Some(0 - m)
  {
    assert s[0] == '-' && IsDigit(s[|s| - 1]);
    TrimmedOfTrimmed(s, IntSpaces);
    assert IntText(s) == s;
    assert s[1..] == NatDigits(m);
    ParseDigitsOfNat(m);
    ParseMinus(s, m);
  }

  /** `int(str(n)) == n` for every integer. */
  lemma ParseShow(n: int)
    ensures ParseInt(Show(n)) == Some(n)
  {
    if n < 0 {
      ParseNegative(Show(n), -n);
    } else {
      ParseUnsigned(Show(n), n);
    }
  }

  /** `int("\x1c5")` raises although `"\x1c5".strip()` is `"5"`: the two
      built-ins disagree on the information separators. */
  lemma SeparatorIsNotIntSpace()
    ensures Strip("\U{1C}5") == "5"
    ensures ParseInt("\U{1C}5") == None
  {
    assert LeadingSpaces("\U{1C}5", StripSpaces) == 1;
    assert LeadingSpaces("\U{1C}5", IntSpaces) == 0;
    assert IntText("\U{1C}5") == "\U{1C}5";
    assert !Grouped("\U{1C}5");
  }
}

=== FILE: records.dfy ===
/** The rider and inspection endpoints of fastapi-backend/main.py: the admin
    guard of the rider endpoints, rider-id resolution for inspections, and
    the ownership rule for changing an inspection. */
module Records {
  import opened Common
  import opened Jwt
  import opened Models
  import PyText
  import Auth
  import Accounts

  /** The guard every rider endpoint runs first: an authenticated admin. */
  function AdminGate(db: UserStore, bearer: Token, clock: Clock): (r: Result<User>)
    ensures Auth.GetCurrentUser(db, bearer, clock).Err? ==> r == Err(Unauthorized)
    ensures r.Ok? <==> Auth.GetCurrentUser(db, bearer, clock).Ok?
                       && Auth.GetCurrentUser(db, bearer, clock).value.role == AdminRole
    ensures r.Ok? ==> r == Auth.GetCurrentUser(db, bearer, clock)
    ensures Auth.GetCurrentUser(db, bearer, clock).Ok? && Auth.GetCurrentUser(db, bearer, clock).value.role != AdminRole
            ==> r == Err(Forbidden)
  {
    var user :- Auth.GetCurrentUser(db, bearer, clock);
    match Accounts.RequireAdmin(user)
    case Fail(status) => Err(status)
    case Pass => Ok(user)
  }

  /** How a rider is looked up: by primary key or by identity-card number. */
  datatype RiderKey = ById(riderId: int) | ByIdNumber(idNumber: string)

  predicate Matches(rider: Rider, key: RiderKey) {
    match key
    case ById(id) => rider.riderId == id
    case ByIdNumber(n) => rider.idNumber == n
  }

  /** `query(Rider).filter(...).first()`: the position of the first matching
      rider, or `None` when none matches. */
  function FirstRider(riders: seq<Rider>, key: RiderKey): (r: Option<nat>)
    ensures r.Some? ==> r.value < |riders| && Matches(riders[r.value], key)
    ensures r.Some? ==> forall j :: 0 <= j < r.value ==> !Matches(riders[j], key)
    ensures r.None? ==> forall j :: 0 <= j < |riders| ==> !Matches(riders[j], key)
  {
    if riders == [] then None
    else if Matches(riders[0], key) then Some(0)
    else
      match FirstRider(riders[1..], key)
      case None => None
      case Some(i) => Some(i + 1)
  }

  /** `GET /riders`: only an admin sees the table. */
  function ReadRiders(db: UserStore, bearer: Token, clock: Clock, riders: seq<Rider>): (r: Result<seq<Rider>>)
    ensures r.Ok? <==> AdminGate(db, bearer, clock).Ok?
    ensures r.Err? ==> r == AdminGate(db, bearer, clock).PropagateFailure()
    ensures r.Ok? ==> r.value == riders
  {
    var _ :- AdminGate(db, bearer, clock);
    Ok(riders)
  }

  /** `POST /riders`: only an admin adds a rider (its id is the one the
      database assigns, carried in `rider`). */
  function CreateRider(db: UserStore, bearer: Token, clock: Clock, riders: seq<Rider>, rider: Rider): (r: Result<seq<Rider>>)
    ensures r.Ok? <==> AdminGate(db, bearer, clock).Ok?
    ensures r.Err? ==> r == AdminGate(db, bearer, clock).PropagateFailure()
    ensures r.Ok? ==> r.value == riders + [rider]
  {
    var _ :- AdminGate(db, bearer, clock);
    Ok(riders + [rider])
  }

  /** The common start of `PUT` and `DELETE /riders/{id}`: the admin guard,
      then 404 when no rider has that id. Returns the rider's position. */
  function RiderForChange(db: UserStore, bearer: Token, clock: Clock, riders: seq<Rider>,
                          riderId: int): (r: Result<nat>)
    ensures AdminGate(db, bearer, clock).Err? ==> r == AdminGate(db, bearer, clock).PropagateFailure()
    ensures AdminGate(db, bearer, clock).Ok? ==>
              (r.Ok? <==> exists j :: 0 <= j < |riders| && riders[j].riderId == riderId)
    ensures r.Err? && AdminGate(db, bearer, clock).Ok? ==> r.status == NotFound
    ensures r.Ok? ==> r.value < |riders| && riders[r.value].riderId == riderId
  {
    var _ :- AdminGate(db, bearer, clock);
    match FirstRider(riders, ById(riderId))
    case None => Err(NotFound)
    case Some(i) => Ok(i)
  }

  /** The guard runs before any rider data is read: when it refuses, every
      rider endpoint gives the same error whatever the rider table holds. */
  lemma RiderGuardFirst(db: UserStore, bearer: Token, clock: Clock, riders: seq<Rider>, other: seq<Rider>,
                        rider: Rider, riderId: int, otherId: int)
    requires AdminGate(db, bearer, clock).Err?
    ensures ReadRiders(db, bearer, clock, riders) == ReadRiders(db, bearer, clock, other)
    ensures CreateRider(db, bearer, clock, riders, rider) == ReadRiders(db, bearer, clock, other)
    ensures RiderForChange(db, bearer, clock, riders, riderId) == RiderForChange(db, bearer, clock, other, otherId)
    ensures RiderForChange(db, bearer, clock, riders, riderId).status == AdminGate(db, bearer, clock).status
  {
  }

  /** The `rider_id` form field of `POST /inspections`: missing or blank is
      `None`; otherwise it must read as an integer, else 400. */
  function ParseRiderId(text: Option<string>): (r: Result<Option<int>>)
    ensures text.None? ==> r == Ok(None)
    ensures text.Some? && PyText.Strip(text.value) == [] ==> r == Ok(None)
    ensures text.Some? && PyText.Strip(text.value) != [] ==>
              match PyText.ParseInt(text.value)
              case None => r == Err(BadRequest)
              case Some(n) => r == Ok(Some(n))
  {
    if text.None? || PyText.Strip(text.value) == [] then Ok(None)
    else
      match PyText.ParseInt(text.value)
      case None => Err(BadRequest)
      case Some(n) => Ok(Some(n))
  }

  /** Every integer, written out, is accepted as the `rider_id` field. */
  lemma ParseRiderIdShow(n: int)
    ensures ParseRiderId(Some(PyText.Show(n))) == Ok(Some(n))
  {
    PyText.ParseShow(n);
  }

  /** A rider id padded with an information separator is not blank to
      `strip()` but is refused by `int()`, so the form is answered with 400. */
  lemma SeparatorPaddedRiderId()
    ensures ParseRiderId(Some("\U{1C}5")) == Err(BadRequest)
  {
    PyText.SeparatorIsNotIntSpace();
  }

  /** `if not resolved_rider_id and id_number:` take the id of the first rider
      with that number, if there is one. A rider id of 0 counts as absent. */
  function BackFillRiderId(resolved: Option<int>, idNumber: Option<string>, riders: seq<Rider>): (r: Option<int>)
    ensures IntTruthy(resolved) || !Truthy(idNumber) ==> r == resolved
    ensures !IntTruthy(resolved) && Truthy(idNumber) ==>
              match FirstRider(riders, ByIdNumber(idNumber.value))
              case None => r == resolved
              case Some(i) => r == Some(riders[i].riderId)
    ensures r != resolved ==> exists j :: 0 <= j < |riders| && r == Some(riders[j].riderId)
                                          && riders[j].idNumber == idNumber.value
  {
    if !IntTruthy(resolved) && Truthy(idNumber) then
      match FirstRider(riders, ByIdNumber(idNumber.value))
      case None => resolved
      case Some(i) => Some(riders[i].riderId)
    else resolved
  }

  /** `f"uploads/{image.filename}"` when a file was sent. */
  function ImageUrl(image: Option<string>): (url: Option<string>)
    ensures image.None? <==> url.None?
    ensures image.Some? ==> url.value == "uploads/" + image.value
  {
    match image
    case None => None
    case Some(filename) => Some("uploads/" + filename)
  }

  /** The form fields of `POST /inspections` (`image` is the uploaded file's name). */
  datatype CreateForm = CreateForm(
    riderId: Option<string>, idNumber: Option<string>, checks: Checks,
    location: Option<string>, city: Option<string>, image: Option<string>, comments: Option<string>)

  /** `POST /inspections` for the authenticated `caller`, with `newId` the
      key the database assigns. Any role may create. A bad `rider_id` is 400;
      with no truthy rider id, id number or location it is 422; otherwise the
      new row, recorded as inspected by the caller. */
  function CreateInspection(caller: User, riders: seq<Rider>, form: CreateForm, newId: int): (r: Result<Inspection>)
    ensures ParseRiderId(form.riderId).Err? ==> r == Err(BadRequest)
    ensures ParseRiderId(form.riderId).Ok? ==>
              var resolved := BackFillRiderId(ParseRiderId(form.riderId).value, form.idNumber, riders);
              && (r.Ok? <==> IntTruthy(resolved) || Truthy(form.idNumber) || Truthy(form.location))
              && (r.Err? ==> r.status == UnprocessableEntity)
              && (r.Ok? ==> r.value.riderId == resolved)
    ensures r.Ok? ==> && r.value.id == newId
                      && r.value.inspectedBy == caller.username
                      && r.value.idNumber == form.idNumber
                      && r.value.checks == form.checks
                      && r.value.location == form.location
                      && r.value.city == form.city
                      && r.value.imageUrl == ImageUrl(form.image)
                      && r.value.comments == form.comments
  {
    var parsed :- ParseRiderId(form.riderId);
    var resolved := BackFillRiderId(parsed, form.idNumber, riders);
    if !IntTruthy(resolved) && !Truthy(form.idNumber) && !Truthy(form.location) then
      Err(UnprocessableEntity)
    else
      Ok(Inspection(newId, resolved, form.idNumber, caller.username, form.checks,
                    form.city, form.location, ImageUrl(form.image), form.comments))
  }

  /** Any `rider_id` that `int()` reads as 0 is falsy: without an id number
      or a location the request is refused exactly as if no rider id had
      been given. */
  lemma ZeroRiderIdCountsAsAbsent(caller: User, riders: seq<Rider>, form: CreateForm, newId: int)
    ensures form.riderId.Some? && PyText.ParseInt(form.riderId.value) == Some(0)
            && !Truthy(form.idNumber) && !Truthy(form.location)
            ==> CreateInspection(caller, riders, form, newId) == Err(UnprocessableEntity)
  {
  }

  /** Who may change or delete an inspection: an admin, or the supervisor who
      recorded it. */
  predicate MayModify(caller: User, inspection: Inspection) {
    caller.role == AdminRole
    || (caller.role == SupervisorRole && inspection.inspectedBy == caller.username)
  }

  /** The form fields of `PUT /inspections/{id}`; `rider_id` arrives as an integer. */
  datatype UpdateForm = UpdateForm(
    riderId: Option<int>, idNumber: Option<string>, checks: Checks,
    location: Option<string>, city: Option<string>, comments: Option<string>, image: Option<string>)

  /** `PUT /inspections/{id}`: 404 for an unknown id, checked before 403 for
      a caller who may not modify it; otherwise only that row changes, its
      recorder and id are kept, and the image is replaced only when sent.
      Unlike creation, no identifier is required. */
  function UpdateInspection(store: InspectionStore, riders: seq<Rider>, caller: User, id: int,
                            form: UpdateForm): (r: Result<InspectionStore>)
    ensures r == Err(NotFound) <==> id !in store
    ensures id in store ==> (r == Err(Forbidden) <==> !MayModify(caller, store[id]))
    ensures id in store && MayModify(caller, store[id]) ==> r.Ok?
    ensures r.Ok? ==> && id in store && MayModify(caller, store[id])
                      && r.value.Keys == store.Keys
                      && (forall k :: k in store && k != id ==> r.value[k] == store[k])
    ensures r.Ok? ==> var before := store[id]; var after := r.value[id];
                      && after.id == before.id
                      && after.inspectedBy == before.inspectedBy
                      && after.riderId == BackFillRiderId(form.riderId, form.idNumber, riders)
                      && after.idNumber == form.idNumber
                      && after.checks == form.checks
                      && after.location == form.location
                      && after.city == form.city
                      && after.comments == form.comments
                      && after.imageUrl == (if form.image.Some? then ImageUrl(form.image) else before.imageUrl)
  {
    if id !in store then Err(NotFound)
    else if !MayModify(caller, store[id]) then Err(Forbidden)
    else
      var before := store[id];
      var after := before.(
        riderId := BackFillRiderId(form.riderId, form.idNumber, riders),
        idNumber := form.idNumber,
        checks := form.checks,
        location := form.location,
        city := form.city,
        comments := form.comments,
        imageUrl := if form.image.Some? then ImageUrl(form.image) else before.imageUrl);
      Ok(store[id := after])
  }

  /** `DELETE /inspections/{id}`: 404, then 403, then the row is removed and
      no other row changes. */
  function DeleteInspection(store: InspectionStore, caller: User, id: int): (r: Result<InspectionStore>)
    ensures r == Err(NotFound) <==> id !in store
    ensures id in store ==> (r == Err(Forbidden) <==> !MayModify(caller, store[id]))
    ensures id in store && MayModify(caller, store[id]) ==> r.Ok?
    ensures r.Ok? ==> && id in store && MayModify(caller, store[id])
                      && r.value.Keys == store.Keys - {id}
                      && forall k :: k in r.value ==> r.value[k] == store[k]
  {
    if id !in store then Err(NotFound)
    else if !MayModify(caller, store[id]) then Err(Forbidden)
    else Ok(store - {id})
  }

  /** `POST /inspections` as served: the `get_current_user` dependency runs
      before the handler, so a request that does not authenticate is 401
      before any form field is read. */
  function CreateInspectionRequest(db: UserStore, bearer: Token, clock: Clock, riders: seq<Rider>,
                                   form: CreateForm, newId: int): (r: Result<Inspection>)
    ensures Auth.GetCurrentUser(db, bearer, clock).Err? ==> r == Err(Unauthorized)
    ensures Auth.GetCurrentUser(db, bearer, clock).Ok? ==>
              r == CreateInspection(Auth.GetCurrentUser(db, bearer, clock).value, riders, form, newId)
  {
    var caller :- Auth.GetCurrentUser(db, bearer, clock);
    CreateInspection(caller, riders, form, newId)
  }

  /** `PUT /inspections/{id}` as served: authentication (401) first, then
      the handler's 404 and 403. */
  function UpdateInspectionRequest(db: UserStore, bearer: Token, clock: Clock, store: InspectionStore,
                                   riders: seq<Rider>, id: int, form: UpdateForm): (r: Result<InspectionStore>)
    ensures Auth.GetCurrentUser(db, bearer, clock).Err? ==> r == Err(Unauthorized)
    ensures Auth.GetCurrentUser(db, bearer, clock).Ok? ==>
              r == UpdateInspection(store, riders, Auth.GetCurrentUser(db, bearer, clock).value, id, form)
  {
    var caller :- Auth.GetCurrentUser(db, bearer, clock);
    UpdateInspection(store, riders, caller, id, form)
  }

  /** `DELETE /inspections/{id}` as served: authentication (401) first, then
      the handler's 404 and 403. */
  function DeleteInspectionRequest(db: UserStore, bearer: Token, clock: Clock, store: InspectionStore,
                                   id: int): (r: Result<InspectionStore>)
    ensures Auth.GetCurrentUser(db, bearer, clock).Err? ==> r == Err(Unauthorized)
    ensures Auth.GetCurrentUser(db, bearer, clock).Ok? ==>
              r == DeleteInspection(store, Auth.GetCurrentUser(db, bearer, clock).value, id)
  {
    var caller :- Auth.GetCurrentUser(db, bearer, clock);
    DeleteInspection(store, caller, id)
  }

  /** A request that does not authenticate is 401 at every inspection
      endpoint, whatever the table, the id or the form: an unknown id is not
      reported as 404 and a malformed `rider_id` not as 400. */
  lemma AuthenticationComesFirst(db: UserStore, bearer: Token, clock: Clock, store: InspectionStore,
                                 riders: seq<Rider>, id: int, create: CreateForm, newId: int, change: UpdateForm)
    requires Auth.GetCurrentUser(db, bearer, clock).Err?
    ensures CreateInspectionRequest(db, bearer, clock, riders, create, newId) == Err(Unauthorized)
    ensures UpdateInspectionRequest(db, bearer, clock, store, riders, id, change) == Err(Unauthorized)
    ensures DeleteInspectionRequest(db, bearer, clock, store, id) == Err(Unauthorized)
  {
  }

  /** A supervisor who creates an inspection may then change and delete it,
      and a rider id filled in from the id number names a rider with that
      number. */
  lemma CreatedInspectionFacts(store: InspectionStore, riders: seq<Rider>, caller: User, form: CreateForm,
                               newId: int, change: UpdateForm)
    ensures var r := CreateInspection(caller, riders, form, newId);
            r.Ok? && caller.role == SupervisorRole ==>
              && UpdateInspection(store[newId := r.value], riders, caller, newId, change).Ok?
              && DeleteInspection(store[newId := r.value], caller, newId).Ok?
    ensures var r := CreateInspection(caller, riders, form, newId);
            r.Ok? && form.riderId.None? && r.value.riderId.Some? ==>
              && form.idNumber.Some?
              && exists j :: 0 <= j < |riders| && riders[j].idNumber == form.idNumber.value
                             && riders[j].riderId == r.value.riderId.value
  {
  }

  /** A supervisor's inspection can be changed or deleted by that
      supervisor and by any admin, and by nobody else. */
  lemma OwnershipRule(store: InspectionStore, riders: seq<Rider>, id: int, owner: User, other: User,
                      change: UpdateForm)
    requires id in store
    requires owner.role == SupervisorRole && store[id].inspectedBy == owner.username
    ensures UpdateInspection(store, riders, owner, id, change).Ok?
    ensures DeleteInspection(store, owner, id).Ok?
    ensures other.role == AdminRole ==>
              UpdateInspection(store, riders, other, id, change).Ok? && DeleteInspection(store, other, id).Ok?
    ensures other.role != AdminRole && other.username != owner.username ==>
              UpdateInspection(store, riders, other, id, change) == Err(Forbidden)
              && DeleteInspection(store, other, id) == Err(Forbidden)
  {
  }

  /** Creation is open to every role and records the caller as the author,
      but a caller whose role is neither admin nor supervisor cannot change or
      delete even an inspection recorded under their own name. */
  lemma PlainUserCannotEditOwn(store: InspectionStore, riders: seq<Rider>, caller: User,
                               id: int, change: UpdateForm)
    requires caller.role != AdminRole && caller.role != SupervisorRole
    requires id in store && store[id].inspectedBy == caller.username
    ensures UpdateInspection(store, riders, caller, id, change) == Err(Forbidden)
    ensures DeleteInspection(store, caller, id) == Err(Forbidden)
  {
  }
}

=== FILE: workflow.dfy ===
/** Properties that span several operations: the account lifecycle over any
    sequence of requests, and what each kind of token is accepted for. Every
    token-minting site signs with the same literal key and HS256, so a token
    from one is accepted by all the decoders. */
module Workflow {
  import opened Common
  import opened Jwt
  import opened Models
  import Auth
  import JwtUtils
  import PasswordReset
  import EmailVerification
  import Accounts
  import Dependencies

  /** The three modules hard-code one and the same secret and algorithm. */
  lemma SecretsAgree()
    ensures JwtUtils.SecretKey == Auth.SecretKey == PasswordReset.SecretKey
    ensures JwtUtils.Algorithm == Auth.Algorithm == PasswordReset.Algorithm == HS256
  {
  }

  /** `main.require_admin` and `get_current_admin` accept the same users. */
  lemma AdminChecksAgree(user: User)
    ensures Accounts.RequireAdmin(user).Pass? <==> Dependencies.GetCurrentAdmin(user).Ok?
    ensures Accounts.RequireAdmin(user).Fail? <==> Dependencies.GetCurrentAdmin(user).Err?
  {
  }

  /** The requests that change the user table. */
  datatype Request =
    | Register(bearer: Token, req: UserCreate, salt: nat)
    | VerifyEmail(token: Token)           // GET /verify-email of main.py
    | RouterVerifyEmail(token: Token)     // verify_email of the auth router, as written (never mounted)
    | ResetPassword(token: Token, newPassword: string, salt: nat)

  /** The user table after one request; a refused request changes nothing. */
  function Step(db: UserStore, h: Auth.Hasher, clock: Clock, request: Request): UserStore {
    match request
    case Register(bearer, req, salt) =>
      (match Accounts.RegisterUser(db, h, bearer, req, salt, clock)
       case Ok(out) => out.db
       case Err(_) => db)
    case VerifyEmail(t) =>
      (match Accounts.VerifyEmail(db, t, clock)
       case Ok(after) => after
       case Err(_) => db)
    case RouterVerifyEmail(t) =>
      (match EmailVerification.VerifyEmail(db, t, clock)
       case Ok(after) => after
       case Err(_) => db)
    case ResetPassword(t, pw, salt) =>
      (match Accounts.ResetPassword(db, h, t, pw, salt, clock)
       case Ok(after) => after
       case Err(_) => db)
  }

  /** A user that exists keeps existing, keeps its name and role, and a set
      verification flag stays set; only a verification request sets it, and
      only a reset changes a digest. */
  ghost predicate Evolves(before: UserStore, after: UserStore) {
    forall name :: name in before ==>
      && name in after
      && after[name].username == before[name].username
      && after[name].role == before[name].role
      && (before[name].isVerified ==> after[name].isVerified)
  }

  lemma StepEvolves(db: UserStore, h: Auth.Hasher, clock: Clock, request: Request)
    ensures Evolves(db, Step(db, h, clock, request))
    ensures WellFormed(db) ==> WellFormed(Step(db, h, clock, request))
    ensures forall name :: name in db && !db[name].isVerified && Step(db, h, clock, request)[name].isVerified
              ==> request.VerifyEmail? || request.RouterVerifyEmail?
    ensures forall name :: name in db && Step(db, h, clock, request)[name].hashedPassword != db[name].hashedPassword
              ==> request.ResetPassword?
  {
    match request
    case Register(bearer, req, salt) =>
      RegisterEvolves(db, h, clock, bearer, req, salt);
    case VerifyEmail(t) =>
      FlagSetEvolves(db, Accounts.VerifyEmail(db, t, clock));
    case RouterVerifyEmail(t) =>
      FlagSetEvolves(db, EmailVerification.VerifyEmail(db, t, clock));
    case ResetPassword(t, pw, salt) =>
  }

  lemma RegisterEvolves(db: UserStore, h: Auth.Hasher, clock: Clock, bearer: Token, req: UserCreate, salt: nat)
    ensures var after := Step(db, h, clock, Register(bearer, req, salt));
            && Evolves(db, after)
            && (WellFormed(db) ==> WellFormed(after))
            && forall name :: name in db ==> after[name] == db[name]
  {
  }

  /** A verification outcome that only ever sets one flag. */
  lemma FlagSetEvolves(db: UserStore, r: Result<UserStore>)
    requires r.Ok? ==> exists name :: name in db && r.value == db[name := db[name].(isVerified := true)]
    ensures var after := if r.Ok? then r.value else db;
            && Evolves(db, after)
            && (WellFormed(db) ==> WellFormed(after))
            && forall name :: name in db ==> after[name].hashedPassword == db[name].hashedPassword
  {
  }

  /** The table after a sequence of requests, each at its own time. */
  function Run(db: UserStore, h: Auth.Hasher, requests: seq<(Clock, Request)>): UserStore
    decreases |requests|
  {
    if requests == [] then db
    else Run(Step(db, h, requests[0].0, requests[0].1), h, requests[1..])
  }

  /** Over any run, accounts are never removed or renamed, roles never
      change, verification is one-way, and the table stays well formed. */
  lemma {:induction false} RunEvolves(db: UserStore, h: Auth.Hasher, requests: seq<(Clock, Request)>)
    requires WellFormed(db)
    ensures Evolves(db, Run(db, h, requests))
    ensures WellFormed(Run(db, h, requests))
    decreases |requests|
  {
    if requests != [] {
      var next := Step(db, h, requests[0].0, requests[0].1);
      StepEvolves(db, h, requests[0].0, requests[0].1);
      RunEvolves(next, h, requests[1..]);
    }
  }

  /** A user that has not verified its email is refused at login even with
      the right password. */
  lemma UnverifiedCannotLogin(db: UserStore, h: Auth.Hasher, username: string, password: string, clock: Clock)
    requires username in db && !db[username].isVerified
    ensures Accounts.LoginForAccessToken(db, h, username, password, clock) == Err(Unauthorized)
  {
  }

  /** The login token authenticates later requests as the same user until
      it expires: it is minted by `jwt_utils` and decoded by `auth`. */
  lemma LoginTokenAuthenticates(db: UserStore, h: Auth.Hasher, username: string, password: string,
                                issued: Clock, later: Clock)
    requires WellFormed(db)
    requires Accounts.LoginForAccessToken(db, h, username, password, issued).Ok?
    requires later.now < issued.now + 30 * Minute
    ensures Auth.GetCurrentUser(db, Accounts.LoginForAccessToken(db, h, username, password, issued).value, later)
            == Ok(db[username])
  {
  }

  /** Registration, then the mailed verification link, then login: the new
      account can log in with its password once the link has been followed. */
  lemma RegisterVerifyLogin(db: UserStore, h: Auth.Hasher, bearer: Token, req: UserCreate, salt: nat,
                            registered: Clock, mailed: Clock, clicked: Clock, login: Clock)
    requires Auth.Sound(h)
    requires Accounts.RegisterUser(db, h, bearer, req, salt, registered).Ok?
    requires clicked.now < mailed.now + 24 * Hour
    ensures var out := Accounts.RegisterUser(db, h, bearer, req, salt, registered).value;
            var mail := EmailVerification.SendVerificationEmail(out.mailTo, mailed);
            && Accounts.LoginForAccessToken(out.db, h, req.username, req.password, login) == Err(Unauthorized)
            && Accounts.VerifyEmail(out.db, mail.token, clicked).Ok?
            && Accounts.LoginForAccessToken(Accounts.VerifyEmail(out.db, mail.token, clicked).value,
                                            h, req.username, req.password, login).Ok?
  {
    var out := Accounts.RegisterUser(db, h, bearer, req, salt, registered).value;
    var mail := EmailVerification.SendVerificationEmail(out.mailTo, mailed);
    Auth.HashThenVerify(h, req.password, salt);
    assert mail.token.claims == map["username" := req.username];
    assert Accounts.VerificationSubject(mail.token.claims) == Some(req.username);
  }

  /** A verification token carries `username` and no `sub`, so it never
      authenticates a request, whatever the table and the time. */
  lemma VerificationTokenNeverAuthenticates(db: UserStore, username: string, issued: Clock, later: Clock)
    ensures Auth.GetCurrentUser(db, EmailVerification.SendVerificationEmail(username, issued).token, later)
            == Err(Unauthorized)
  {
    var t := EmailVerification.SendVerificationEmail(username, issued).token;
    Auth.NoSubNeverAuthenticates(db, t, later);
  }

  /** Nor can it reset a password: before expiry the reset is refused with 400. */
  lemma VerificationTokenNeverResets(db: UserStore, h: Auth.Hasher, username: string, pw: string, salt: nat,
                                     issued: Clock, later: Clock)
    requires later.now < issued.now + 24 * Hour
    ensures Accounts.ResetPassword(db, h, EmailVerification.SendVerificationEmail(username, issued).token,
                                   pw, salt, later) == Err(BadRequest)
  {
  }

  /** The token issued at login, used before it expires, authorises a
      password reset: no claim distinguishes the two purposes. */
  lemma LoginTokenResetsPassword(db: UserStore, h: Auth.Hasher, username: string, password: string,
                                 issued: Clock, later: Clock, newPassword: string, salt: nat)
    requires WellFormed(db) && username != ""
    requires Accounts.LoginForAccessToken(db, h, username, password, issued).Ok?
    requires later.now < issued.now + 30 * Minute
    ensures var t := Accounts.LoginForAccessToken(db, h, username, password, issued).value;
            Accounts.ResetPassword(db, h, t, newPassword, salt, later)
              == Ok(db[username := db[username].(hashedPassword := h.hash(newPassword, salt))])
  {
  }

  /** The same login token also verifies an email through `main.py`'s
      endpoint (which reads `sub`); the router's handler as written, which
      reads only `username` and is never mounted, would answer 404. */
  lemma LoginTokenVerifiesEmail(db: UserStore, h: Auth.Hasher, username: string, password: string,
                                issued: Clock, later: Clock)
    requires WellFormed(db) && username != ""
    requires Accounts.LoginForAccessToken(db, h, username, password, issued).Ok?
    requires later.now < issued.now + 30 * Minute
    ensures var t := Accounts.LoginForAccessToken(db, h, username, password, issued).value;
            && Accounts.VerifyEmail(db, t, later) == Ok(db[username := db[username].(isVerified := true)])
            && EmailVerification.VerifyEmail(db, t, later) == Err(NotFound)
  {
    var t := Accounts.LoginForAccessToken(db, h, username, password, issued).value;
    assert Accounts.VerificationSubject(t.claims) == Some(username);
  }

  /** The token mailed by forgot-password is an ordinary session token: until
      it expires it authenticates requests as that user. */
  lemma ResetTokenAuthenticates(db: UserStore, email: string, issued: Clock, later: Clock)
    requires WellFormed(db) && email in db
    requires later.now < issued.now + 30 * Minute
    ensures Auth.GetCurrentUser(db, Accounts.ForgotPassword(db, email, issued).value.token, later) == Ok(db[email])
  {
  }

  /** A reset link followed more than 30 minutes after it was requested is
      refused with 401 and changes nothing. */
  lemma ResetTokenExpires(db: UserStore, h: Auth.Hasher, email: string, pw: string, salt: nat,
                          issued: Clock, later: Clock)
    requires email in db
    requires later.now > issued.now + 30 * Minute
    ensures Accounts.ResetPassword(db, h, Accounts.ForgotPassword(db, email, issued).value.token, pw, salt, later)
            == Err(Unauthorized)
  {
  }

  /** Forgot-password followed by a timely reset: the new password then
      logs a verified user in. */
  lemma ForgotThenReset(db: UserStore, h: Auth.Hasher, email: string, pw: string, salt: nat,
                        issued: Clock, later: Clock)
    requires Auth.Sound(h) && WellFormed(db) && email in db && email != "" && db[email].isVerified
    requires later.now < issued.now + 30 * Minute
    ensures var t := Accounts.ForgotPassword(db, email, issued).value.token;
            && Accounts.ResetPassword(db, h, t, pw, salt, later).Ok?
            && Accounts.LoginForAccessToken(Accounts.ResetPassword(db, h, t, pw, salt, later).value,
                                            h, email, pw, later).Ok?
  {
    Auth.HashThenVerify(h, pw, salt);
  }
}
